=== FILE: README.md ===
# Attendance register — data layer and API routes, in Dafny

This project models the attendance register of a church ("La Porte des
Cieux"). Members register with a surname (`nom`), first name (`prenom`),
optional phone number (`numero`) and birth date. Each service (`culte`: the
"1er culte" or "2ème culte") records a presence or an absence (`presence`)
for a member on a date, with an optional absence reason (`pkabsence`). The
model covers the SQLite data layer `app/db/database.server.ts` and the four
API route actions built on it:

- `POST /api/presences` creates a presence;
- `PUT|DELETE /api/presences/:id` edits or deletes one;
- `POST /api/members` registers a member;
- `PUT|DELETE /api/members/:id` edits or deletes one.

The database is an immutable value `Store.Db`, holding the `membre`,
`presence` and `admin` tables plus the two AUTOINCREMENT counters kept in
`sqlite_sequence`. Every data-layer function is a pure function returning a
`Step(result, db)`: its JavaScript return value and the store after the call.
Every route action maps the request method, the submitted form fields (a
`map<string, string>`; an absent field is `formData.get` returning `null`)
and the store to a `Routes.Response` (200/400/500/405 with its JSON flags)
and the new store.

Writes inside a `try` block may throw. The model makes this a parameter
`fault: Fault`: `FailAt(k)` makes the k-th write of the call (counted from 0)
throw. Writes already done stay done, because no call uses a transaction.
A `numero` already held by another row (`numero TEXT UNIQUE`) is the one
constraint violation the model derives from the table contents. Foreign-key
enforcement is not modelled, so the model's inserts do not check that the
member or the service exists. If the driver enforces the foreign keys, such
an insert would throw, and that is one more storage error covered by `fault`.

Modules, following the program's structure:

| module | file | what |
|---|---|---|
| `Wrappers` | wrappers.dfy | `Option` |
| `Seqs` | seqs.dfy | order-preserving `Filter` (what a `DELETE ... WHERE` leaves), and counting repeats |
| `JsText` | jstext.dfy | JavaScript `trim`, `parseInt` with no radix, `${n}`, `x \|\| null`, `x \|\| ""`; SQLite `LOWER` |
| `Store` | store.dfy | the tables, the store invariant `Valid`, every data-layer function |
| `Listing` | listing.dfy | `getAllPresences`: inner join, `ORDER BY`, display labels |
| `Routes` | routes.dfy | the four route actions |
| `StoreLaws` | store_laws.dfy | properties relating several data-layer calls |
| `RouteLaws` | route_laws.dfy | properties of the routes, including the gaps between validation and storage |
| `Fixes` | fixes.dfy | corrected definitions for the Findings below, with their intended properties proved |

Several constants are copied from the source. The default admin is
`Culte` / `Culte@Pr0t3ction`. The service labels are "1er culte", "2ème culte"
and "Culte n". The status labels are "Présent" and "Absent". The fallbacks
are "Inconnu" and "N/A". All French error messages are kept.

The server code does less checking than its own clients, and the model
follows the server code:

- `POST /api/presences` does not require a reason for an absence. `addPresence`
  stores any non-empty reason, whatever the flag (`RouteLaws.AbsenceWithoutReasonAccepted`,
  `StoreLaws.PresentCheckInKeepsReason`). The clients ask for a reason only for
  an absence and send none for a presence (app/components/PresenceForm.tsx:72-85,
  app/routes/dashboard.tsx:524-536).
- No server code trims the reason. The clients trim it before sending
  (app/components/PresenceForm.tsx:85, app/routes/dashboard.tsx:535-536). A
  reason sent by any other caller is stored as given, and the PUT route's
  `!pkabsence` check lets a reason of spaces through (`RouteLaws.BlankReasonPasses`).
- The member routes check names with `!nom`, so a name of spaces passes.
  `updateMember` does not reject it either. The clients reject names that trim
  to empty and send trimmed names (app/routes/home.tsx:155-171,
  app/components/MemberForm.tsx:17-29).
- The PUT route passes the reason to `updatePresence`, which takes no reason
  (`Routes.PresencesIdAction`, `RouteLaws.PutDropsReason`). The edit dialog does
  send one (app/routes/dashboard.tsx:535-537).
- `deleteMember` decrements only the `membre` counter, never the `presence`
  counter, even though it deletes presence rows (`StoreLaws.DeleteMemberCounters`).

## Model

| member | source | states |
|---|---|---|
| `Store.EmptyDbValid` | app/db/database.server.ts:57-94 | The empty database satisfies the schema invariant: unique positive ids, unique non-null `numero`, flags in {0,1}, non-negative counters. It also holds one row per (member, culte, date). |
| `Store.SeedAdmin` | app/db/database.server.ts:96-106 | On an empty admin table the seed inserts exactly `Admin(1, "Culte", "Culte@Pr0t3ction")`. On a non-empty table it changes nothing. No other table changes, and the invariant is kept. |
| `StoreLaws.SeedAdminIdempotent` | app/db/database.server.ts:96-106 | Running the seed twice equals running it once. Afterwards at least one admin exists. |
| `Store.GetAllMembers` | app/db/database.server.ts:111-118 | Lists every member row. The `NOT NULL` filter drops none, since both columns are `NOT NULL`. |
| `Store.StoredMember` | app/db/database.server.ts:132 | The row written by insert and update has trimmed names. An empty or missing `numero` becomes NULL, and any other `numero` is stored unchanged. The other fields are written as given. |
| `Store.NewId` | app/db/database.server.ts:64 | The AUTOINCREMENT id is positive. It exceeds both the table's counter and every id in use, so it is fresh. When the counter is not behind any id, it is exactly the counter plus one. |
| `Store.AddMember` | app/db/database.server.ts:120-139 | Returns null exactly when the INSERT throws: on a storage fault, or on a `numero` already held (UNIQUE). Then nothing changes. Otherwise it appends one trimmed row under a fresh positive id, and the counter moves to that id. It keeps the invariant and keeps stored names trimmed. |
| `StoreLaws.AddedMemberIsListed` | app/db/database.server.ts:120-139 | After a successful add, the member list contains the trimmed row. It is the only row with the new id, and every previously listed member is still listed. |
| `Store.UpdateMember` | app/db/database.server.ts:141-160 | Returns false exactly on a storage fault, or when the edited row exists and another row holds the new `numero`. Then nothing changes. Otherwise only rows with that id are overwritten, and it returns true even if no row has the id. It keeps the invariant and keeps names trimmed. |
| `StoreLaws.AddedMemberFound` | app/db/database.server.ts:120-202 | After a successful add, the duplicate lookup with the trimmed names finds a member. |
| `StoreLaws.UpdateMemberReadBack` | app/db/database.server.ts:141-160 | Editing an existing member reads back exactly the written (trimmed) values under that id. The row count is unchanged. |
| `StoreLaws.UpdateMissingMemberSucceeds` | app/db/database.server.ts:149-155 | Editing an id no row carries reports success and leaves the store identical. |
| `Store.ResetTableSequence` | app/db/database.server.ts:163-174 | The counter drops by one, clamped at 0, and never goes negative. A failing UPDATE is swallowed and leaves the counter unchanged. |
| `Store.DeleteMember` | app/db/database.server.ts:176-190 | Deletes the member's presence rows first, then the member row, then decrements the `membre` counter. The result is true exactly when neither DELETE throws. If the second DELETE throws, the presence rows are already gone but the member row stays. The presence counter is never touched. It keeps the invariant. |
| `Store.FilterMembersTrimmed` | app/db/database.server.ts:182 | Deleting member rows leaves every remaining name trimmed. |
| `StoreLaws.DeletedMemberVanishes` | app/db/database.server.ts:176-190 | After a successful member delete, no listed member, joined row or listed presence refers to that member. |
| `StoreLaws.DeleteThenAddReusesId` | app/db/database.server.ts:163-184 | Deleting the member that holds the latest id, then adding a member, hands out that same id again. The counter decrement makes AUTOINCREMENT reuse it. |
| `StoreLaws.DeleteMemberCounters` | app/db/database.server.ts:176-190 | A fault-free member delete decrements only the `membre` counter, clamped at 0. The `presence` counter is left as it was. |
| `Store.FindByName` | app/db/database.server.ts:197-200 | Returns a row whose names equal the arguments under LOWER. Returns nothing exactly when no row matches. |
| `Store.GetMemberByNameAndPrenom` | app/db/database.server.ts:192-202 | Returns a stored row whose `nom` and `prenom` match under `LOWER`. It returns null if and only if no stored row matches on both. |
| `JsText.LowerEqAsciiCase` | app/db/database.server.ts:199 | `LOWER(a) = LOWER(b)` holds if and only if the strings have the same length and differ at most in the case of ASCII letters, position by position. |
| `JsText.LowerEqNotUnicode` | app/db/database.server.ts:199 | SQLite's built-in `LOWER` leaves every other character alone: two names equal under `LOWER` agree exactly wherever the first is not an ASCII letter, so "Élodie" and "élodie" are different names. |
| `Listing.Join` | app/db/database.server.ts:221-222 | The inner join contains a pair if and only if its presence row and member row are stored and the member's id is the presence's `member`. With unique ids in both tables, no presence row appears twice. |
| `Listing.Sort` | app/db/database.server.ts:223 | The order is date descending, then `nom`, then `prenom`, by code point. The result is a permutation of its input. |
| `Listing.BeforeTrans` | app/db/database.server.ts:223 | The `ORDER BY` comparison is transitive, so the sorted order is well defined. |
| `Listing.OrderedJoin` | app/db/database.server.ts:221-223 | The joined rows are sorted, are exactly the matching (presence, member) pairs, and with unique ids hold each presence row once. |
| `Listing.CulteLabel` | app/db/database.server.ts:230-235 | The label is "1er culte" if and only if the id is 1, and "2ème culte" if and only if it is 2. Any other id gives "Culte " followed by a decimal rendering that `parseInt` reads back as the id. |
| `Listing.CulteLabelInjective` | app/db/database.server.ts:230-235 | Two services never share a label, including every "Culte n". The proof reads the id back with parseInt. |
| `Listing.DisplayName` | app/db/database.server.ts:229 | The shown name is `nom + " " + prenom` trimmed. It is "Inconnu" exactly when that is all spaces. It is never empty. |
| `Listing.BlankNamesShowUnknown` | app/db/database.server.ts:229-239 | A member is listed as "Inconnu" whenever both names are blank, as a whitespace-only registration leaves them. Otherwise the trimmed full name is shown. |
| `Listing.Telephone` | app/db/database.server.ts:240 | A missing or empty number is shown as "N/A". Otherwise the number is shown as stored. |
| `Listing.PresenceLabel` | app/db/database.server.ts:241 | "Présent" exactly for flag 1. Anything else is "Absent". |
| `Listing.ViewOf` | app/db/database.server.ts:237-245 | One listing row: the id, the display name, the phone, the status label ("Présent" for flag 1 and "Absent" for any other flag), the service label, the stored date (the `today` parameter when the stored date is empty), and the reason with "" as null. |
| `Listing.GetAllPresences` | app/db/database.server.ts:206-247 | The listing is one view per joined row, in the `ORDER BY` order. |
| `Listing.EachPresenceListedOnce` | app/db/database.server.ts:206-247 | On a valid store, no presence id appears twice in the listing. |
| `Listing.ListedIffMemberExists` | app/db/database.server.ts:221-222 | A stored presence row is listed if and only if some member row carries its member id. Rows of unknown members are hidden. |
| `Listing.ListingPresenceLabels` | app/db/database.server.ts:241 | Every listed status reads "Présent" or "Absent". |
| `Store.CountTriple` | app/db/database.server.ts:255-259 | The `COUNT(*)` is positive exactly when some row holds the (member, culte, date) triple. It never exceeds the row count. |
| `Store.CheckPresenceExists` | app/db/database.server.ts:249-261 | True if and only if a stored row holds the (member, culte, date) triple. |
| `Store.StoredPresence` | app/db/database.server.ts:281-283 | The inserted row has the given triple and the flag stored as 1/0. The reason becomes NULL exactly when it is empty or missing, whatever the flag, and is otherwise stored unchanged. |
| `Store.AddPresence` | app/db/database.server.ts:263-290 | Returns true exactly when the triple is new and the INSERT does not throw. Then exactly one row is appended, with a fresh id that the counter records. On false nothing changes. It keeps the invariant and one row per triple. |
| `StoreLaws.AddedPresenceExists` | app/db/database.server.ts:249-290 | After a successful add, the triple exists, so the same check-in is refused the next time. |
| `StoreLaws.OrphanPresenceHidden` | app/db/database.server.ts:263-290 | With inserts unchecked against the `membre` table, a presence recorded for a member id no row carries is stored, yet never listed. |
| `StoreLaws.PresentCheckInKeepsReason` | app/db/database.server.ts:283 | A "present" check-in with a reason stores flag 1 together with that reason. |
| `Store.UpdatePresence` | app/db/database.server.ts:292-307 | Returns true exactly when the UPDATE does not throw. Rows with that id get the new flag and service. Ids, members, dates and reasons of all rows are untouched. Other rows are unchanged, and a missing id still gives true. It keeps the invariant. |
| `StoreLaws.UpdatePresenceBreaksTriples` | app/db/database.server.ts:292-307 | Concrete store where the edit succeeds: one row per triple before it, two rows sharing a triple after it. |
| `Store.DeletePresence` | app/db/database.server.ts:309-320 | Returns true exactly when the DELETE does not throw. It removes exactly the rows with that id and decrements the `presence` counter, clamped at 0. A failing counter update is swallowed. It keeps the invariant. |
| `StoreLaws.DeletedPresenceNotListed` | app/db/database.server.ts:309-320 | After a successful presence delete, no listed row carries that id. |
| `Store.FindAdmin` | app/db/database.server.ts:331-332 | Returns an admin row with exactly that username and password. Returns nothing exactly when there is none. |
| `Store.LoginAdmin` | app/db/database.server.ts:324-338 | Succeeds if and only if an admin row has the trimmed username and exactly the given password. |
| `StoreLaws.SeededLogin` | app/db/database.server.ts:324-338 | On a freshly seeded store, login succeeds if and only if the username trims to "Culte" and the password is exactly "Culte@Pr0t3ction". `checkAdminExists("Culte")` holds. |
| `StoreLaws.AdminExistsIffSomeLogin` | app/db/database.server.ts:324-351 | `checkAdminExists(u)` holds if and only if some password lets `u` log in, since both look the admin up by the trimmed username. |
| `StoreLaws.SeededAdminExists` | app/db/database.server.ts:96-106 | After the seed, `checkAdminExists(u)` holds if and only if it held before, or the admin table was empty and `u` trims to "Culte". |
| `JsText.OrNull` | app/db/database.server.ts:132 | `x \|\| null` is null exactly for a missing or empty string. Otherwise it keeps the string. |
| `JsText.OrNullIdempotent` | app/routes/api/presences.ts:27 | The route's `pkabsence \|\| null` followed by the store's own `\|\| null` (app/db/database.server.ts:283) is the same as applying it once. |
| `JsText.OrEmptyOrNullAgree` | app/routes/api/members.ts:15-16 | `x \|\| ""` and `x \|\| null` differ only in how they spell "nothing": each one undoes into the other, and `x \|\| ""` is "" exactly for a missing or empty field. |
| `JsText.Trim` | app/db/database.server.ts:132 | `trim` never lengthens a string. The result is empty exactly when the input is all spaces, and it has no space at either end. |
| `JsText.TrimIdempotent` | app/db/database.server.ts:132 | Trimming a trimmed name changes nothing. |
| `JsText.TrimOfPadded` | app/db/database.server.ts:132 | Any spaces put around a trimmed string are exactly what `trim` removes. |
| `JsText.ParseIntNeedsDigit` | app/routes/api/presences.ts:14-15 | A string without a decimal digit parses to NaN. |
| `JsText.MissingFieldIsNaN` | app/routes/api/presences.ts:14 | `parseInt(formData.get(k) as string)` is NaN when the field is missing, because `parseInt(null)` parses "null". |
| `JsText.IntToString` | app/db/database.server.ts:235 | The decimal rendering of an integer is non-empty and starts with a non-space. |
| `JsText.ParseIntOfIntToString` | app/db/database.server.ts:235 | parseInt reads back the decimal rendering of every integer. |
| `Listing.ClientCulteId` | app/components/PresenceForm.tsx:79 | The client maps "2ème culte" to 2 and every other label to 1. |
| `Listing.ClientCulteRoundTrip` | app/routes/dashboard.tsx:530 | The server's label followed by the client's mapping gives back the service id if and only if the id is 1 or 2. Every other id becomes 1. |
| `Routes.PresencesAction` | app/routes/api/presences.ts:11-37 | Both ids must parse and the date must be non-empty, or the answer is 400 with nothing written. The route never answers 500. A valid form succeeds if and only if its triple is new and the INSERT does not throw. Every failed insert is answered 400 with `duplicate: true` and nothing written. A success appends exactly the row built from the form and touches only the presence table and its counter. It keeps the invariant and one row per triple. |
| `Routes.PresencesIdAction` | app/routes/api/presences-id.ts:6-58 | An unparseable id gives 400 "ID invalide". DELETE succeeds exactly without a fault, removes exactly the rows with that id and decrements the presence counter; a failed DELETE gives 500 with no change. PUT rejects a NaN service and an absence without a reason; otherwise it succeeds exactly without a fault, and a failure is 500 with no change. A PUT changes only the flag and service of the rows with that id and never any `pkabsence`. Any other method gives 405. No answer touches the member or admin tables, and the invariant is kept. |
| `Routes.MembersAction` | app/routes/api/members.ts:11-45 | Missing or empty names give 400. A case-insensitive match on the raw names gives 400 with `exists: true`. Otherwise the answer is 200 exactly when there is no fault and the number is not already held, and 500 with no change when there is. A success returns a fresh positive id, appends the trimmed row, and changes only the member table and its counter. It keeps the invariant and trimmed names. |
| `Routes.MembersIdAction` | app/routes/api/members-id.ts:6-51 | An unparseable id gives 400. DELETE cascades to the presence rows, decrements the member counter, and succeeds exactly when neither DELETE throws; once the presence DELETE has run, exactly that member's presence rows are gone, on success and failure alike; a 500 keeps the member rows and counter. PUT requires both names, then succeeds exactly when there is no fault and no other row of an existing member holds the new number; on success it overwrites exactly the rows with that id and changes no other table, and a failure is 500 with no change. The admin table and presence counter are never touched. It keeps the invariant and trimmed names. |
| `RouteLaws.SecondCheckInRejected` | app/routes/api/presences.ts:27-35 | A second check-in for an existing (member, culte, date) gets 400 `duplicate: true` and nothing is written. |
| `RouteLaws.StorageErrorReportedAsDuplicate` | app/routes/api/presences.ts:27-35 | A failing INSERT for a new triple is also answered 400 `duplicate: true`. |
| `RouteLaws.FirstCheckInStored` | app/routes/api/presences.ts:27-30 | A valid first check-in succeeds, adds one row, and makes the triple exist. |
| `RouteLaws.AbsenceWithoutReasonAccepted` | app/routes/api/presences.ts:16-27 | An absence with no reason is accepted and stored with flag 0 and a NULL reason. |
| `RouteLaws.OnlyTrueMeansPresent` | app/routes/api/presences.ts:16 | Any `presence` value other than "true", or none at all, records an absence. |
| `RouteLaws.PutDropsReason` | app/routes/api/presences-id.ts:46 | Editing a row to an absence with reason "malade" succeeds and sets flag 0, but the row keeps its old (missing) reason. |
| `RouteLaws.BlankReasonPasses` | app/routes/api/presences-id.ts:39 | A reason of one space satisfies the PUT validation. |
| `RouteLaws.MembersActionIgnoresVerb` | app/routes/api/members.ts:11 | The registration action answers every method as it answers POST. |
| `RouteLaws.CaseInsensitiveDuplicate` | app/routes/api/members.ts:26-31 | Registering any stored member's names again, in any mix of ASCII case, gives 400 with `exists: true` and writes nothing. |
| `RouteLaws.PaddedNeverLowerEq` | app/db/database.server.ts:199 | A trimmed name never equals, under LOWER, any name that starts with a space. |
| `RouteLaws.PaddedNameSlipsThrough` | app/routes/api/members.ts:26-35 | With trimmed stored names, registering an existing member's surname behind one space succeeds. It appends a second row with the same surname and first name. |
| `RouteLaws.BlankNameStoredEmpty` | app/routes/api/members.ts:18-35 | A surname made only of spaces passes validation and is stored as "". |
| `RouteLaws.MissingBirthDateStoredEmpty` | app/routes/api/members.ts:16 | A registration without a birth date stores "" (`formData.get(...) \|\| ""`). |
| `RouteLaws.TakenNumeroIs500` | app/routes/api/members.ts:35-43 | A phone number already on file makes registration answer 500 with nothing written. |
| `RouteLaws.FailedMemberDeleteIsPartial` | app/db/database.server.ts:178-189 | When the member DELETE throws, the route answers 500. The member row and counter stay, but its presence rows are already gone, and every other presence row is kept. |
| `RouteLaws.EditToTakenNumeroIs500` | app/routes/api/members-id.ts:39-46 | Editing a member to another member's phone number answers 500 with no change. |
| `Fixes.EditReason` | app/routes/api/presences-id.ts:46 | The intended reason of an edit: none for a presence, and for an absence the submitted one, stored unchanged unless it is empty or missing, which gives NULL. |
| `Fixes.UpdatePresence` | app/db/database.server.ts:292-307 | Corrected `updatePresence`. It refuses exactly when another row holds the new triple, or on a fault. It writes flag, service and reason to that id only, and keeps both the invariant and one row per triple. |
| `Fixes.EditRowsKeepsTriples` | app/db/database.server.ts:299-301 | With unique ids and no clash, the edited rows still hold one row per triple. |
| `Fixes.GuardedUpdateRefusesClash` | app/db/database.server.ts:292-307 | On the store where the original edit makes two rows share a triple, the corrected one refuses and changes nothing. |
| `Fixes.EditPresence` | app/routes/api/presences-id.ts:25-55 | Corrected PUT. With a valid service and reason it answers 400 `duplicate: true` exactly on a clash, 200 exactly when there is no clash and no fault, and otherwise 500. A success stores the flag, the service, and the reason for an absence (none for a presence). Only the presence table changes: rows with another id stay as they were, and every row keeps its id, member and date. It keeps the invariant and one row per triple. |
| `Fixes.EditOntoTakenTripleRefused` | app/routes/api/presences-id.ts:46 | Any edit moving a row onto another row's triple gets 400 `duplicate: true` with no change. |
| `Fixes.EditStoresReason` | app/routes/api/presences-id.ts:46 | The corrected edit to an absence with reason "malade" stores "malade". |
| `Fixes.PresencesIdAction` | app/routes/api/presences-id.ts:6-58 | The corrected edit/delete route: DELETE and every error path as in the original, PUT through `EditPresence`. It keeps one row per triple. |
| `Fixes.PresencesAction` | app/routes/api/presences.ts:27-36 | Corrected create. For a valid form the answer is 400 `duplicate: true` if and only if the triple exists, 500 if and only if a new triple's INSERT throws, and 200 if and only if the triple is new and nothing throws. A success is the original's success. |
| `Fixes.MembersAction` | app/routes/api/members.ts:18-35 | Corrected registration. Names empty after trimming give 400, and the duplicate lookup uses the trimmed names that are stored. Otherwise the answer is 200 exactly when there is no fault and the number is free, else 500 with no change. A success stores non-empty names, changes only the member table and its counter, and keeps names distinct under LOWER. |
| `Fixes.PaddedNameRefused` | app/routes/api/members.ts:26-31 | The padded surname that slips past the original is refused with `exists: true`. |
| `Fixes.BlankNameRefused` | app/routes/api/members.ts:18-23 | A surname made only of spaces is refused with "Le nom et le prénom sont obligatoires". |

## Left out

- The React pages and components are not modelled: forms, tables, modals, dashboard filters, client-side sorting and CSV export. Only the client's label-to-service mapping is modelled, because it round-trips a server value.
- The `GET` loaders of `presences.ts` and `members.ts` only return `getAllPresences()` and `getAllMembers()`, which are modelled.
- Opening the database file, the `data/` directory, the WAL pragma and the `CREATE TABLE` statements are I/O. The schema's constraints are stated as `Store.Valid`.
- The `culte` table is never written and is not modelled. Foreign-key enforcement on `presence` is not modelled, so inserts are unchecked. Whether the driver enforces the keys depends on how its bundled SQLite is built, which the source does not show. An enforced key would make the insert throw, which the `fault` parameter covers.
- Console logging is left out.
- Reads outside a `try` (`getAllMembers`, `getMemberByNameAndPrenom`, `checkPresenceExists`, `getAllPresences`) are assumed not to throw.
- The `catch` branches of `loginAdmin` and `checkAdminExists` (a read that throws gives null/false) are left out.
- `new Date().toLocaleDateString()` depends on the clock and the locale. It is the parameter `today`.
- Concurrency is left out: the window between `checkPresenceExists` and the INSERT cannot be expressed in a sequential model.
- The admin session and the login/logout routes are not part of this model.
- Numbers are unbounded integers. Precision loss above 2^53 in `parseInt` and `Number(lastInsertRowid)`, exponent rendering of huge numbers in `${n}`, and AUTOINCREMENT exhaustion are not modelled.
- A form value that is a `File` rather than a string is not modelled.
- The 405 answer's message text is not carried by `Routes.Response`.
- Store.GetAllMembers: returns the rows in table order. The query has no `ORDER BY`, so SQLite promises no order, and the model fixes one.
- Each route starts with `await request.formData()`. A malformed body makes that call reject, and the route then throws with no answer of its own. The model starts from an already parsed form, so this path is left out.
- A form is a `map<string, string>`, so it cannot hold a field name twice. `formData.get` returns the first of several values, and the model has only one.
- Store.GetMemberByNameAndPrenom: does not state which of several matching rows is returned. The query has no `ORDER BY`, and the model returns the first in table order.
- Listing.Sort: SQLite leaves the order of rows equal on (date, nom, prenom) unspecified. The model fixes one admissible order: the join order, kept stable.
- Store.NewId: when the counter lags behind the largest id in use, the contract states freshness only. The body's choice, one more than the larger of the two, follows SQLite's AUTOINCREMENT rule.
- Store.UpdatePresence: the route passes a fourth argument, the reason, which this three-parameter function ignores. The model keeps that signature on purpose, and the corrected `Fixes.UpdatePresence` takes the reason.

## Findings

| source | as written | input that shows it | evidently intended | confidence | as-written member | corrected member |
|---|---|---|---|---|---|---|
| app/db/database.server.ts:292-307 | `updatePresence` moves a row to a new service without the (member, culte, date) check that `addPresence` makes | rows 1 (culte 1) and 2 (culte 2) for member 7 on "07/01/2024"; edit row 2 to culte 1 | the edit is refused, keeping one row per (member, culte, date) | not executed; high | `StoreLaws.UpdatePresenceBreaksTriples` | `Fixes.UpdatePresence` |
| app/routes/api/presences-id.ts:46 | the reason is passed as a fourth argument to the three-parameter `updatePresence` and dropped | PUT `presence=false`, `pkabsence=malade` on a row with no reason: 200, and the row still has no reason | an absence stores its reason and a presence clears it | not executed; high | `RouteLaws.PutDropsReason` | `Fixes.EditPresence` |
| app/routes/api/presences.ts:27-36 | every `false` from `addPresence` is answered "already recorded" with `duplicate: true` | a new triple whose INSERT throws | `duplicate: true` only when the triple exists; a failed INSERT is a 500 | not executed; medium | `RouteLaws.StorageErrorReportedAsDuplicate` | `Fixes.PresencesAction` |
| app/routes/api/members.ts:26-35 | the duplicate lookup compares the raw names while `addMember` stores them trimmed | stored "Dupont"/"Jean", then register nom " Dupont", prenom "Jean": 200 and a second "Dupont"/"Jean" row | the lookup uses the trimmed names and the second registration gets 400 `exists: true` | not executed; high | `RouteLaws.PaddedNameSlipsThrough` | `Fixes.MembersAction` |
| app/routes/api/members.ts:18-23 | `!nom` only rejects the empty string, so a name of spaces passes and is stored as "" | register nom "   ", prenom "Jean": 200 and a row with nom "" | names empty after trimming are rejected with 400 | not executed; high | `RouteLaws.BlankNameStoredEmpty` | `Fixes.MembersAction` |

=== FILE: fixes.dfy ===
/**
 * Corrected definitions for the places where the routes and the data layer
 * evidently do less than intended, each with the property the original
 * misses proved about it:
 *
 *  - an edit of a presence re-checks the (member, culte, date) guard and
 *    writes the absence reason it was given;
 *  - a failed check-in INSERT is a server error, not a duplicate;
 *  - registration validates and looks up the trimmed names it stores.
 */
module Fixes {
  import opened Wrappers
  import opened JsText
  import opened Store
  import opened Routes

  // ---------------------------------------------------------------------------
  // Presence edits.
  // ---------------------------------------------------------------------------

  /**
   * Moving the row `presenceId` to service `culteId` would give it the
   * triple of another row.
   */
  predicate Clash(ps: seq<PresenceRow>, presenceId: int, culteId: int) {
    exists i, j :: 0 <= i < |ps| && 0 <= j < |ps| && ps[i].id == presenceId && ps[j].id != presenceId
      && IsTriple(ps[j], ps[i].member, culteId, ps[i].date)
  }

  /** The reason an edit stores: none for a presence, the submitted one (or NULL) for an absence. */
  function EditReason(presence: bool, pkabsence: Option<string>): (r: Option<string>)
    ensures presence ==> r.None?
    ensures !presence ==> (r.None? <==> Falsy(pkabsence))
    ensures !presence && !Falsy(pkabsence) ==> r == pkabsence
    ensures r != Some("")
  {
    if presence then None else OrNull(pkabsence)
  }

  /**
   * `updatePresence(id, presence, culteId, pkabsence)` as it evidently should
   * be: refused when another row already holds the new triple, and writing
   * the reason together with the flag and the service.
   */
  function UpdatePresence(db: Db, presenceId: int, presence: bool, culteId: int, pkabsence: Option<string>, fault: Fault): (r: Step<bool>)
    ensures r.result <==> !Clash(db.presences, presenceId, culteId) && !fault.Hits(0)
    ensures !r.result ==> r.db == db
    ensures |r.db.presences| == |db.presences|
    ensures forall k :: 0 <= k < |db.presences| ==>
      var (was, now) := (db.presences[k], r.db.presences[k]);
      && now.id == was.id && now.member == was.member && now.date == was.date
      && (r.result && was.id == presenceId ==>
            && (now.presence == 1 <==> presence) && now.presence in {0, 1}
            && now.culte == culteId
            && now.pkabsence == EditReason(presence, pkabsence))
      && (was.id != presenceId ==> now == was)
    ensures r.db == db.(presences := r.db.presences)
    ensures Valid(db) ==> Valid(r.db)
    ensures Valid(db) && TriplesUnique(db.presences) ==> TriplesUnique(r.db.presences)
  {
    if Clash(db.presences, presenceId, culteId) || fault.Hits(0) then Step(false, db)
    else
      var ps := EditRows(db.presences, presenceId, presence, culteId, pkabsence);
      var db' := db.(presences := ps);
      assert Valid(db) && TriplesUnique(db.presences) ==> TriplesUnique(ps) by {
        if Valid(db) && TriplesUnique(db.presences) {
          EditRowsKeepsTriples(db.presences, presenceId, presence, culteId, pkabsence);
        }
      }
      Step(true, db')
  }

  /** The rows after the edit, before any guard. */
  function EditRows(ps: seq<PresenceRow>, presenceId: int, presence: bool, culteId: int, pkabsence: Option<string>): (r: seq<PresenceRow>)
    ensures |r| == |ps|
    ensures forall k :: 0 <= k < |ps| ==> r[k] == (if ps[k].id == presenceId then
      ps[k].(presence := if presence then 1 else 0, culte := culteId, pkabsence := EditReason(presence, pkabsence))
      else ps[k])
  {
    seq(|ps|, k requires 0 <= k < |ps| =>
      if ps[k].id == presenceId then
        ps[k].(presence := if presence then 1 else 0, culte := culteId, pkabsence := EditReason(presence, pkabsence))
      else ps[k])
  }

  /** With unique ids and no clash, the edited rows keep one row per triple. */
  lemma EditRowsKeepsTriples(ps: seq<PresenceRow>, presenceId: int, presence: bool, culteId: int, pkabsence: Option<string>)
    requires PresenceIdsOk(ps) && TriplesUnique(ps)
    requires !Clash(ps, presenceId, culteId)
    ensures TriplesUnique(EditRows(ps, presenceId, presence, culteId, pkabsence))
  {
    var r := EditRows(ps, presenceId, presence, culteId, pkabsence);
    forall i, j | 0 <= i < j < |r|
      ensures !(r[i].member == r[j].member && r[i].culte == r[j].culte && r[i].date == r[j].date)
    {
      if ps[i].id == presenceId && ps[j].id != presenceId {
        assert !IsTriple(ps[j], ps[i].member, culteId, ps[i].date);
      } else if ps[i].id != presenceId && ps[j].id == presenceId {
        assert !IsTriple(ps[i], ps[j].member, culteId, ps[j].date);
      } else {
        assert ps[i].id != ps[j].id;
      }
    }
  }

  /**
   * The PUT branch with the corrected data-layer call: a move onto another
   * row's triple is a 400 duplicate, and an absence stores its reason.
   */
  function EditPresence(presenceId: int, form: Form, db: Db, fault: Fault): (r: Step<Response>)
    ensures |r.db.presences| == |db.presences|
    ensures ParseIntField(Field(form, "culteId")).None? ==> r == Step(Invalid(InvalidCulte), db)
    ensures r.result.Success? ==>
      && !ReasonMissing(form)
      && forall k :: 0 <= k < |db.presences| && db.presences[k].id == presenceId ==>
        && (r.db.presences[k].presence == 1 <==> Flag(form, "presence"))
        && r.db.presences[k].culte == ParseIntField(Field(form, "culteId")).value
        && (!Flag(form, "presence") ==> r.db.presences[k].pkabsence == Field(form, "pkabsence"))
        && (Flag(form, "presence") ==> r.db.presences[k].pkabsence.None?)
    ensures ParseIntField(Field(form, "culteId")).Some? && ReasonMissing(form) ==> r == Step(Invalid(ReasonRequired), db)
    ensures ParseIntField(Field(form, "culteId")).Some? && !ReasonMissing(form) ==>
      var clash := Clash(db.presences, presenceId, ParseIntField(Field(form, "culteId")).value);
      && (r.result.Success? <==> !clash && !fault.Hits(0))
      && (r.result.BadRequest? <==> clash)
      && (r.result.BadRequest? ==> r.result == BadRequest(DuplicatePresence, false, true))
      && (r.result.ServerError? ==> r.result == ServerError(UpdateFailed))
    ensures !r.result.Success? ==> r.db == db
    ensures r.db == db.(presences := r.db.presences)
    ensures forall k :: 0 <= k < |db.presences| ==>
      var (was, now) := (db.presences[k], r.db.presences[k]);
      && now.id == was.id && now.member == was.member && now.date == was.date
      && (!(r.result.Success? && was.id == presenceId) ==> now == was)
    ensures Valid(db) ==> Valid(r.db)
    ensures Valid(db) && TriplesUnique(db.presences) ==> TriplesUnique(r.db.presences)
  {
    var presence := Flag(form, "presence");
    var culteId := ParseIntField(Field(form, "culteId"));
    if culteId.None? then Step(Invalid(InvalidCulte), db)
    else if ReasonMissing(form) then Step(Invalid(ReasonRequired), db)
    else if Clash(db.presences, presenceId, culteId.value) then
      Step(BadRequest(DuplicatePresence, false, true), db)
    else
      var updated := UpdatePresence(db, presenceId, presence, culteId.value, Field(form, "pkabsence"), fault);
      if updated.result then Step(Success(None), updated.db)
      else Step(ServerError(UpdateFailed), updated.db)
  }

  /** The edit/delete action using `EditPresence` for PUT; DELETE is unchanged. */
  function PresencesIdAction(verb: string, idParam: string, form: Form, db: Db, fault: Fault): (r: Step<Response>)
    ensures verb != "PUT" || ParseInt(idParam).None? ==> r == Routes.PresencesIdAction(verb, idParam, form, db, fault)
    ensures verb == "PUT" && ParseInt(idParam).Some? ==> r == EditPresence(ParseInt(idParam).value, form, db, fault)
    ensures Valid(db) ==> Valid(r.db)
    ensures Valid(db) && TriplesUnique(db.presences) ==> TriplesUnique(r.db.presences)
  {
    var presenceId := ParseInt(idParam);
    if verb == "PUT" && presenceId.Some? then EditPresence(presenceId.value, form, db, fault)
    else Routes.PresencesIdAction(verb, idParam, form, db, fault)
  }

  // ---------------------------------------------------------------------------
  // Check-in.
  // ---------------------------------------------------------------------------

  /**
   * The create action with the two failures told apart: a 400 duplicate
   * exactly when the triple is already recorded, a 500 for a failed INSERT.
   */
  function PresencesAction(verb: string, form: Form, db: Db, fault: Fault): (r: Step<Response>)
    ensures !PresenceFormOk(form) ==> r == Step(Invalid(InvalidData), db)
    ensures PresenceFormOk(form) ==>
      var (m, c, d) := (ParseIntField(Field(form, "memberId")).value, ParseIntField(Field(form, "culteId")).value, Field(form, "date").value);
      && (r.result.BadRequest? <==> CheckPresenceExists(db, m, c, d))
      && (r.result.BadRequest? ==> r.result == BadRequest(DuplicatePresence, false, true))
      && (r.result.ServerError? <==> !CheckPresenceExists(db, m, c, d) && fault.Hits(0))
      && (r.result.ServerError? ==> r.result == ServerError(AddPresenceFailed))
      && (r.result.Success? <==> !CheckPresenceExists(db, m, c, d) && !fault.Hits(0))
    ensures r.result.Success? || r.result.BadRequest? || r.result.ServerError?
    ensures !r.result.Success? ==> r.db == db
    ensures r.result.Success? ==> r == Routes.PresencesAction(verb, form, db, fault)
    ensures Valid(db) ==> Valid(r.db)
    ensures TriplesUnique(db.presences) ==> TriplesUnique(r.db.presences)
  {
    var memberId := ParseIntField(Field(form, "memberId"));
    var culteId := ParseIntField(Field(form, "culteId"));
    var date := Field(form, "date");
    if memberId.None? || culteId.None? || Falsy(date) then Step(Invalid(InvalidData), db)
    else if CheckPresenceExists(db, memberId.value, culteId.value, date.value) then
      Step(BadRequest(DuplicatePresence, false, true), db)
    else
      var added := AddPresence(db, memberId.value, culteId.value, Flag(form, "presence"), date.value, OrNull(Field(form, "pkabsence")), fault);
      if added.result then Step(Success(None), added.db)
      else Step(ServerError(AddPresenceFailed), db)
  }

  const AddPresenceFailed: string := "Erreur lors de l'enregistrement de la présence"

  // ---------------------------------------------------------------------------
  // Registration.
  // ---------------------------------------------------------------------------

  /** No two members carry the same names up to LOWER. */
  predicate NamesDistinct(ms: seq<Member>) {
    forall i, j :: 0 <= i < j < |ms| ==> !(LowerEq(ms[i].nom, ms[j].nom) && LowerEq(ms[i].prenom, ms[j].prenom))
  }

  /** Both names are present and not made only of spaces. */
  predicate TrimmedNamesPresent(form: Form) {
    NamesPresent(form) && Trim(form["nom"]) != [] && Trim(form["prenom"]) != []
  }

  /**
   * The registration action validating and looking up the trimmed names it
   * stores, so the duplicate check sees exactly what the insert writes.
   */
  function MembersAction(verb: string, form: Form, db: Db, fault: Fault): (r: Step<Response>)
    ensures !TrimmedNamesPresent(form) ==> r == Step(Invalid(NamesRequired), db)
    ensures TrimmedNamesPresent(form) && GetMemberByNameAndPrenom(db, Trim(form["nom"]), Trim(form["prenom"])).Some? ==>
      r == Step(BadRequest(MemberExists, true, false), db)
    ensures TrimmedNamesPresent(form) && GetMemberByNameAndPrenom(db, Trim(form["nom"]), Trim(form["prenom"])).None? ==>
      && (r.result.Success? <==> !fault.Hits(0) && !NumeroInUse(db.membres, OrNull(Field(form, "numero"))))
      && (!r.result.Success? ==> r == Step(ServerError(AddMemberFailed), db))
    ensures !r.result.Success? ==> r.db == db
    ensures r.db == db.(membres := r.db.membres, membreSeq := r.db.membreSeq)
    ensures r.result.Success? ==>
      && TrimmedNamesPresent(form)
      && r.result.memberId.Some?
      && var id := r.result.memberId.value;
      && id > 0
      && r.db.membres == db.membres + [FormMember(id, form)]
      && FormMember(id, form).nom != [] && FormMember(id, form).prenom != []
      && r.db.presences == db.presences
    ensures Valid(db) ==> Valid(r.db)
    ensures NamesDistinct(db.membres) ==> NamesDistinct(r.db.membres)
  {
    var nom := Field(form, "nom");
    var prenom := Field(form, "prenom");
    if Falsy(nom) || Falsy(prenom) || Trim(nom.value) == [] || Trim(prenom.value) == [] then
      Step(Invalid(NamesRequired), db)
    else if GetMemberByNameAndPrenom(db, Trim(nom.value), Trim(prenom.value)).Some? then
      Step(BadRequest(MemberExists, true, false), db)
    else
      var added := AddMember(db, nom.value, prenom.value, Field(form, "numero"), BirthDate(form), fault);
      if added.result.Some? then
        TrimIdempotent(nom.value);
        TrimIdempotent(prenom.value);
        AppendKeepsNamesDistinct(db, added.db.membres, FormMember(added.result.value, form));
        Step(Success(added.result), added.db)
      else Step(ServerError(AddMemberFailed), added.db)
  }

  lemma AppendKeepsNamesDistinct(db: Db, ms: seq<Member>, row: Member)
    requires ms == db.membres + [row]
    requires forall m :: m in db.membres ==> !(LowerEq(m.nom, row.nom) && LowerEq(m.prenom, row.prenom))
    ensures NamesDistinct(db.membres) ==> NamesDistinct(ms)
  {
    if NamesDistinct(db.membres) {
      forall i, j | 0 <= i < j < |ms| ensures !(LowerEq(ms[i].nom, ms[j].nom) && LowerEq(ms[i].prenom, ms[j].prenom)) {
        if j == |ms| - 1 {
          assert ms[i] in db.membres;
        } else {
          assert ms[i] == db.membres[i] && ms[j] == db.membres[j];
        }
      }
    }
  }

  // ---------------------------------------------------------------------------
  // The corrected definitions on the inputs that expose the originals.
  // ---------------------------------------------------------------------------

  /** The padded surname that slips past the original lookup is refused as existing. */
  lemma PaddedNameRefused(db: Db, m: Member)
    requires NamesTrimmed(db.membres)
    requires m in db.membres && m.nom != [] && m.prenom != []
    ensures MembersAction("POST", map["nom" := " " + m.nom, "prenom" := m.prenom], db, NoFault)
      == Step(BadRequest(MemberExists, true, false), db)
  {
    var k :| 0 <= k < |db.membres| && db.membres[k] == m;
    assert Trimmed(m.nom) && Trimmed(m.prenom);
    assert AllSpace(" ");
    TrimOfPadded(" ", m.nom, "");
    assert " " + m.nom + "" == " " + m.nom;
    TrimOfTrimmed(m.prenom);
    assert Trim(m.nom) != [] && Trim(m.prenom) != [];
    assert NameMatch(m, Trim(" " + m.nom), Trim(m.prenom));
  }

  /** A surname made only of spaces is refused instead of being stored as "". */
  lemma BlankNameRefused(verb: string, form: Form, db: Db, fault: Fault)
    requires "nom" in form && AllSpace(form["nom"])
    ensures MembersAction(verb, form, db, fault) == Step(Invalid(NamesRequired), db)
  {
  }

  /** The edit that would give row 2 the triple (7, 1, "07/01/2024") of row 1 is refused. */
  lemma GuardedUpdateRefusesClash()
    ensures var db := Db([], [PresenceRow(1, 1, 1, "07/01/2024", 7, None), PresenceRow(2, 2, 1, "07/01/2024", 7, None)], [], 0, 2);
      && Valid(db) && TriplesUnique(db.presences)
      && UpdatePresence(db, 2, true, 1, None, NoFault) == Step(false, db)
  {
    var db := Db([], [PresenceRow(1, 1, 1, "07/01/2024", 7, None), PresenceRow(2, 2, 1, "07/01/2024", 7, None)], [], 0, 2);
    assert IsTriple(db.presences[0], db.presences[1].member, 1, db.presences[1].date);
    assert Clash(db.presences, 2, 1);
  }

  /** Any edit moving a row onto the triple of another row is answered 400 duplicate with no change. */
  lemma EditOntoTakenTripleRefused(presenceId: int, form: Form, db: Db, fault: Fault, i: int, j: int)
    requires ParseIntField(Field(form, "culteId")).Some? && !ReasonMissing(form)
    requires 0 <= i < |db.presences| && 0 <= j < |db.presences|
    requires db.presences[i].id == presenceId && db.presences[j].id != presenceId
    requires IsTriple(db.presences[j], db.presences[i].member, ParseIntField(Field(form, "culteId")).value, db.presences[i].date)
    ensures EditPresence(presenceId, form, db, fault) == Step(BadRequest(DuplicatePresence, false, true), db)
  {
  }

  /** An edit to an absence with a reason stores that reason. */
  lemma EditStoresReason(presenceId: int, form: Form, db: Db, k: int)
    requires ParseIntField(Field(form, "culteId")).Some?
    requires Field(form, "presence") == Some("false") && Field(form, "pkabsence") == Some("malade")
    requires 0 <= k < |db.presences| && db.presences[k].id == presenceId
    requires !Clash(db.presences, presenceId, ParseIntField(Field(form, "culteId")).value)
    ensures var r := EditPresence(presenceId, form, db, NoFault);
      && r.result.Success?
      && r.db.presences[k].presence == 0
      && r.db.presences[k].pkabsence == Some("malade")
  {
  }
}

=== FILE: jstext.dfy ===
/**
 * The JavaScript and SQLite string primitives the data layer and the routes
 * rely on: `String.prototype.trim`, `parseInt` without a radix, the decimal
 * rendering of an integer in a template literal, the `x || null` and
 * `x || ""` idioms on a form field, and SQLite's built-in `LOWER`.
 */
module JsText {
  import opened Wrappers

  // ---------------------------------------------------------------------------
  // Falsy strings: `!x`, `x || null` and `x || ""` on a `string | null`.
  // ---------------------------------------------------------------------------

  /** `!x` for a string-or-null: null and the empty string are falsy. */
  predicate Falsy(x: Option<string>) {
    x.None? || x.value == ""
  }

  /** `x || null`: the empty string becomes null, any other string is kept. */
  function OrNull(x: Option<string>): (r: Option<string>)
    ensures r.None? <==> Falsy(x)
    ensures r.Some? ==> r == x && r.value != ""
  {
    if Falsy(x) then None else x
  }

  /** `(x as string) || ""`: null becomes the empty string. */
  function OrEmpty(x: Option<string>): (r: string)
    ensures x.Some? ==> r == x.value
    ensures x.None? ==> r == ""
  {
    x.GetOr("")
  }

  /** `x || null` applied twice is applied once, as at a route that passes `pkabsence || null` to a store that repeats it. */
  lemma OrNullIdempotent(x: Option<string>)
    ensures OrNull(OrNull(x)) == OrNull(x)
  {
  }

  /**
   * `x || ""` and `x || null` agree on what they keep: the one is the other
   * with "" and null exchanged, so a birth date read with `|| ""` and a
   * number read with `|| null` lose nothing but the missing/empty distinction.
   */
  lemma OrEmptyOrNullAgree(x: Option<string>)
    ensures OrNull(Some(OrEmpty(x))) == OrNull(x)
    ensures OrEmpty(OrNull(x)) == OrEmpty(x)
    ensures Falsy(x) <==> OrEmpty(x) == ""
  {
  }

  // ---------------------------------------------------------------------------
  // trim: strips WhiteSpace and LineTerminator code points at both ends
  // (ECMAScript sections 12.2 and 12.3; the Zs category is listed out).
  // ---------------------------------------------------------------------------

  predicate IsJsSpace(c: char) {
    || c == '\t' || c == '\n' || c == '\U{B}' || c == '\U{C}' || c == '\r'
    || c == ' ' || c == '\U{A0}' || c == '\U{1680}'
    || ('\U{2000}' <= c <= '\U{200A}')
    || c == '\U{2028}' || c == '\U{2029}' || c == '\U{202F}' || c == '\U{205F}'
    || c == '\U{3000}' || c == '\U{FEFF}'
  }

  predicate AllSpace(s: string) {
    forall k :: 0 <= k < |s| ==> IsJsSpace(s[k])
  }

  /** Index of the first non-space character, or |s| when there is none. */
  function StartOf(s: string): (i: nat)
    ensures i <= |s|
    ensures AllSpace(s[..i])
    ensures i < |s| ==> !IsJsSpace(s[i])
    decreases |s|
  {
    if s == [] || !IsJsSpace(s[0]) then 0
    else
      var i := 1 + StartOf(s[1..]);
      assert s[..i] == [s[0]] + s[1..][..i - 1];
      i
  }

  /** One past the last non-space character, or 0 when there is none. */
  function EndOf(s: string): (j: nat)
    ensures j <= |s|
    ensures AllSpace(s[j..])
    ensures j > 0 ==> !IsJsSpace(s[j - 1])
    decreases |s|
  {
    if s == [] || !IsJsSpace(s[|s| - 1]) then |s|
    else
      var j := EndOf(s[..|s| - 1]);
      assert s[j..] == s[..|s| - 1][j..] + [s[|s| - 1]];
      j
  }

  function TrimStart(s: string): (r: string)
    ensures |r| <= |s|
    ensures r == [] || !IsJsSpace(r[0])
    ensures r == [] <==> AllSpace(s)
  {
    var i := StartOf(s);
    assert i == |s| <== AllSpace(s);
    s[i..]
  }

  function TrimEnd(s: string): (r: string)
    ensures |r| <= |s|
    ensures r == [] || !IsJsSpace(r[|r| - 1])
    ensures r == [] <==> AllSpace(s)
  {
    var j := EndOf(s);
    assert j == 0 <== AllSpace(s);
    s[..j]
  }

  /** `s.trim()`. */
  function Trim(s: string): (r: string)
    ensures |r| <= |s|
    ensures r == [] <==> AllSpace(s)
    ensures r != [] ==> !IsJsSpace(r[0]) && !IsJsSpace(r[|r| - 1])
    ensures Trimmed(r)
  {
    var t := TrimStart(s);
    if t == [] then []
    else
      assert !AllSpace(t) by { assert !IsJsSpace(t[0]); }
      var r := TrimEnd(t);
      assert r[0] == t[0];
      r
  }

  /** No space at either end: what trim leaves. */
  predicate Trimmed(s: string) {
    s == [] || (!IsJsSpace(s[0]) && !IsJsSpace(s[|s| - 1]))
  }

  /** A string with no space at either end is its own trim. */
  lemma TrimOfTrimmed(s: string)
    requires Trimmed(s)
    ensures Trim(s) == s
  {
    if s != [] {
      assert StartOf(s) == 0;
      assert EndOf(s) == |s|;
    }
  }

  /** trim is idempotent: trimming a stored name again changes nothing. */
  lemma TrimIdempotent(s: string)
    ensures Trim(Trim(s)) == Trim(s)
  {
    TrimOfTrimmed(Trim(s));
  }

  /** Surrounding spaces are exactly what trim removes. */
  lemma {:induction false} TrimOfPadded(pre: string, s: string, post: string)
    requires AllSpace(pre) && AllSpace(post)
    requires s == [] || (!IsJsSpace(s[0]) && !IsJsSpace(s[|s| - 1]))
    ensures Trim(pre + s + post) == s
  {
    var w := pre + s + post;
    if s == [] {
      assert AllSpace(w) by {
        forall k | 0 <= k < |w| ensures IsJsSpace(w[k]) {
          if k < |pre| { assert w[k] == pre[k]; } else { assert w[k] == post[k - |pre|]; }
        }
      }
    } else {
      StartOfPadded(pre, s + post);
      assert pre + s + post == pre + (s + post);
      var t := TrimStart(w);
      assert t == s + post;
      EndOfPadded(s, post);
    }
  }

  lemma {:induction false} StartOfPadded(pre: string, s: string)
    requires AllSpace(pre)
    requires s != [] && !IsJsSpace(s[0])
    ensures StartOf(pre + s) == |pre|
    decreases |pre|
  {
    var w := pre + s;
    if pre != [] {
      var rest := pre[1..];
      assert w[0] == pre[0] && IsJsSpace(w[0]);
      assert w[1..] == rest + s;
      assert AllSpace(rest) by {
        forall k | 0 <= k < |rest| ensures IsJsSpace(rest[k]) {
          assert rest[k] == pre[k + 1];
        }
      }
      StartOfPadded(rest, s);
      assert StartOf(w) == 1 + StartOf(w[1..]);
    } else {
      assert w == s;
    }
  }

  lemma {:induction false} EndOfPadded(s: string, post: string)
    requires AllSpace(post)
    requires s != [] && !IsJsSpace(s[|s| - 1])
    ensures EndOf(s + post) == |s|
    decreases |post|
  {
    var w := s + post;
    if post != [] {
      assert w[|w| - 1] == post[|post| - 1];
      assert w[..|w| - 1] == s + post[..|post| - 1];
      EndOfPadded(s, post[..|post| - 1]);
    } else {
      assert w == s;
    }
  }

  // ---------------------------------------------------------------------------
  // parseInt(string) with no radix (ECMAScript section 19.2.5): skip leading
  // spaces, one optional sign, a "0x"/"0X" prefix switches to radix 16, then
  // the longest run of digits; no digit at all gives NaN (here None).
  // ---------------------------------------------------------------------------

  predicate IsDecDigit(c: char) {
    '0' <= c <= '9'
  }

  predicate IsRadixDigit(c: char, hex: bool) {
    IsDecDigit(c) || (hex && (('a' <= c <= 'f') || ('A' <= c <= 'F')))
  }

  function DigitValue(c: char, hex: bool): (d: nat)
    requires IsRadixDigit(c, hex)
    ensures d < (if hex then 16 else 10)
  {
    if IsDecDigit(c) then c as int - '0' as int
    else if 'a' <= c <= 'f' then c as int - 'a' as int + 10
    else c as int - 'A' as int + 10
  }

  /** Length of the longest prefix of `s` made of digits of the radix. */
  function DigitRun(s: string, hex: bool): (n: nat)
    ensures n <= |s|
    ensures forall k :: 0 <= k < n ==> IsRadixDigit(s[k], hex)
    ensures n < |s| ==> !IsRadixDigit(s[n], hex)
    decreases |s|
  {
    if s == [] || !IsRadixDigit(s[0], hex) then 0
    else 1 + DigitRun(s[1..], hex)
  }

  /** Positional value of a digit string, most significant digit first. */
  function DigitsValue(ds: string, hex: bool): nat
    requires forall k :: 0 <= k < |ds| ==> IsRadixDigit(ds[k], hex)
    decreases |ds|
  {
    if ds == [] then 0
    else DigitsValue(ds[..|ds| - 1], hex) * (if hex then 16 else 10) + DigitValue(ds[|ds| - 1], hex)
  }

  /** `parseInt(s)`: None stands for NaN. */
  function ParseInt(s: string): (r: Option<int>)
  {
    var t := TrimStart(s);
    var negative := t != [] && t[0] == '-';
    var u := if t != [] && (t[0] == '-' || t[0] == '+') then t[1..] else t;
    var hex := |u| >= 2 && u[0] == '0' && (u[1] == 'x' || u[1] == 'X');
    var body := if hex then u[2..] else u;
    var n := DigitRun(body, hex);
    if n == 0 then None
    else
      var v: int := DigitsValue(body[..n], hex);
      Some(if negative then -v else v)
  }

  /** `parseInt(formData.get(k) as string)`: a missing field is turned into the string "null". */
  function ParseIntField(x: Option<string>): Option<int> {
    ParseInt(x.GetOr("null"))
  }

  /** A string without any decimal digit parses to NaN: "", "abc", "null". */
  lemma ParseIntNeedsDigit(s: string)
    requires forall k :: 0 <= k < |s| ==> !IsDecDigit(s[k])
    ensures ParseInt(s) == None
  {
    var t := TrimStart(s);
    assert forall k :: 0 <= k < |t| ==> t[k] == s[|s| - |t| + k];
    var u := if t != [] && (t[0] == '-' || t[0] == '+') then t[1..] else t;
    assert forall k :: 0 <= k < |u| ==> u[k] == s[|s| - |u| + k];
    if u != [] {
      assert !IsDecDigit(u[0]);
    }
  }

  /** A missing numeric form field is NaN. */
  lemma MissingFieldIsNaN()
    ensures ParseIntField(None) == None
  {
    ParseIntNeedsDigit("null");
  }

  // ---------------------------------------------------------------------------
  // Decimal rendering of an integer, as in the template literal `${n}`.
  // ---------------------------------------------------------------------------

  function DecDigit(d: nat): (c: char)
    requires d < 10
    ensures IsDecDigit(c) && DigitValue(c, false) == d
  {
    ('0' as int + d) as char
  }

  function NatToString(n: nat): (s: string)
    ensures s != []
    ensures forall k :: 0 <= k < |s| ==> IsDecDigit(s[k])
    decreases n
  {
    if n < 10 then [DecDigit(n)]
    else NatToString(n / 10) + [DecDigit(n % 10)]
  }

  function IntToString(n: int): (s: string)
    ensures s != [] && !IsJsSpace(s[0])
  {
    if n < 0 then "-" + NatToString(-n) else NatToString(n)
  }

  lemma {:induction false} NatToStringValue(n: nat)
    ensures DigitsValue(NatToString(n), false) == n
    decreases n
  {
    var s := NatToString(n);
    if n >= 10 {
      NatToStringValue(n / 10);
      assert s[..|s| - 1] == NatToString(n / 10);
    }
  }

  /** parseInt reads back the decimal rendering of every integer. */
  lemma ParseIntOfIntToString(n: int)
    ensures ParseInt(IntToString(n)) == Some(n)
  {
    var s := IntToString(n);
    var m: nat := if n < 0 then -n else n;
    var digits := NatToString(m);
    assert TrimStart(s) == s by { assert StartOf(s) == 0; }
    var u := if s[0] == '-' || s[0] == '+' then s[1..] else s;
    assert u == digits;
    assert !(|u| >= 2 && u[0] == '0' && (u[1] == 'x' || u[1] == 'X')) by {
      if |u| >= 2 { assert IsDecDigit(u[1]); }
    }
    DigitRunAll(digits);
    assert digits[..|digits|] == digits;
    NatToStringValue(m);
  }

  lemma {:induction false} DigitRunAll(s: string)
    requires forall k :: 0 <= k < |s| ==> IsDecDigit(s[k])
    ensures DigitRun(s, false) == |s|
    decreases |s|
  {
    if s != [] {
      DigitRunAll(s[1..]);
    }
  }

  // ---------------------------------------------------------------------------
  // SQLite LOWER without ICU: only the 26 ASCII capitals are folded.
  // ---------------------------------------------------------------------------

  function AsciiLower(c: char): char {
    if 'A' <= c <= 'Z' then (c as int + 32) as char else c
  }

  function SqlLower(s: string): (r: string)
    ensures |r| == |s|
  {
    seq(|s|, k requires 0 <= k < |s| => AsciiLower(s[k]))
  }

  /** `LOWER(a) = LOWER(b)`. */
  predicate LowerEq(a: string, b: string) {
    SqlLower(a) == SqlLower(b)
  }

  predicate IsAsciiLetter(c: char) {
    ('A' <= c <= 'Z') || ('a' <= c <= 'z')
  }

  /** The same character, or the same ASCII letter in the other case. */
  predicate AsciiCaseVariant(c: char, d: char) {
    c == d || (IsAsciiLetter(c) && IsAsciiLetter(d) && (c as int - d as int == 32 || d as int - c as int == 32))
  }

  lemma AsciiLowerEq(c: char, d: char)
    ensures AsciiLower(c) == AsciiLower(d) <==> AsciiCaseVariant(c, d)
  {
  }

  /**
   * `LOWER(a) = LOWER(b)` holds exactly when the two strings have the same
   * length and differ at most in the case of ASCII letters: "DUPONT" and
   * "dupont" compare equal, and so does every other ASCII case mix.
   */
  lemma LowerEqAsciiCase(a: string, b: string)
    ensures LowerEq(a, b) <==> |a| == |b| && forall k :: 0 <= k < |a| ==> AsciiCaseVariant(a[k], b[k])
  {
    if |a| == |b| {
      forall k | 0 <= k < |a| ensures SqlLower(a)[k] == SqlLower(b)[k] <==> AsciiCaseVariant(a[k], b[k]) {
        AsciiLowerEq(a[k], b[k]);
      }
      if forall k :: 0 <= k < |a| ==> AsciiCaseVariant(a[k], b[k]) {
        assert SqlLower(a) == SqlLower(b);
      }
    }
  }

  /**
   * LOWER leaves every character that is not an ASCII letter alone, so two
   * names compare equal only if they agree exactly there: "Élodie" and
   * "élodie" are two different names.
   */
  lemma LowerEqNotUnicode(a: string, b: string, k: int)
    requires LowerEq(a, b)
    requires 0 <= k < |a| && !IsAsciiLetter(a[k])
    ensures k < |b| && b[k] == a[k]
  {
    assert SqlLower(a)[k] == SqlLower(b)[k];
    AsciiLowerEq(a[k], b[k]);
  }
}

=== FILE: listing.dfy ===
/**
 * `getAllPresences`: the presence table joined with the member table
 * (an inner join on `p.member = m.id`), ordered by date descending, then
 * surname and first name ascending, and mapped to display labels.
 */
module Listing {
  import opened Wrappers
  import opened JsText
  import opened Seqs
  import opened Store

  /** One row of the listing, every field already a display string. */
  datatype PresenceView = PresenceView(
    id: int,
    nom: string,
    telephone: string,
    presence: string,
    culte: string,
    date: string,
    pkabsence: Option<string>)

  /** A presence row paired with the member row it joined. */
  datatype Joined = Joined(p: PresenceRow, m: Member)

  const FirstService: string := "1er culte"
  const SecondService: string := "2ème culte"
  const Present: string := "Présent"
  const Absent: string := "Absent"
  const Unknown: string := "Inconnu"
  const NoPhone: string := "N/A"

  // ---------------------------------------------------------------------------
  // Labels.
  // ---------------------------------------------------------------------------

  /** Service 1 and 2 have names; any other id is shown as "Culte <id>". */
  function CulteLabel(culteId: int): (text: string)
    ensures text == FirstService <==> culteId == 1
    ensures text == SecondService <==> culteId == 2
    ensures culteId != 1 && culteId != 2 ==>
      |text| > 6 && text[..6] == "Culte " && ParseInt(text[6..]) == Some(culteId)
  {
    if culteId == 1 then FirstService
    else if culteId == 2 then SecondService
    else
      var text := "Culte " + IntToString(culteId);
      assert text[0] == 'C';
      assert text[6..] == IntToString(culteId);
      assert ParseInt(text[6..]) == Some(culteId) by { ParseIntOfIntToString(culteId); }
      text
  }

  /** Different services never share a label. */
  lemma CulteLabelInjective(a: int, b: int)
    requires CulteLabel(a) == CulteLabel(b)
    ensures a == b
  {
    if a != 1 && a != 2 && b != 1 && b != 2 {
      var sa := IntToString(a);
      var sb := IntToString(b);
      assert ("Culte " + sa)[6..] == sa;
      assert ("Culte " + sb)[6..] == sb;
      ParseIntOfIntToString(a);
      ParseIntOfIntToString(b);
    }
  }

  /**
   * The client turns a label back into a service id with "1er culte" -> 1,
   * "2ème culte" -> 2 and anything else -> 1.
   */
  function ClientCulteId(text: string): (id: int)
    ensures id == 1 || id == 2
    ensures id == 2 <==> text == SecondService
  {
    if text == FirstService then 1
    else if text == SecondService then 2
    else 1
  }

  /** Label then client mapping: ids 1 and 2 come back, every other id becomes 1. */
  lemma ClientCulteRoundTrip(culteId: int)
    ensures ClientCulteId(CulteLabel(culteId)) == (if culteId == 2 then 2 else 1)
    ensures culteId == 1 || culteId == 2 <==> ClientCulteId(CulteLabel(culteId)) == culteId
  {
  }

  function PresenceLabel(flag: int): (text: string)
    ensures text == Present <==> flag == 1
    ensures text == Present || text == Absent
  {
    if flag == 1 then Present else Absent
  }

  /** `${nom} ${prenom}` trimmed, or "Inconnu" when nothing is left. */
  function DisplayName(nom: string, prenom: string): (name: string)
    ensures name != []
    ensures AllSpace(nom + " " + prenom) ==> name == Unknown
    ensures !AllSpace(nom + " " + prenom) ==> name == Trim(nom + " " + prenom)
  {
    var full := Trim(nom + " " + prenom);
    if full == "" then Unknown else full
  }

  /**
   * The listing falls back to "Inconnu" whenever both stored names are blank,
   * as a registration with whitespace-only names leaves them; otherwise it
   * shows the trimmed full name.
   */
  lemma BlankNamesShowUnknown(nom: string, prenom: string)
    ensures AllSpace(nom) && AllSpace(prenom) ==> DisplayName(nom, prenom) == Unknown
    ensures !(AllSpace(nom) && AllSpace(prenom)) ==> DisplayName(nom, prenom) == Trim(nom + " " + prenom)
  {
    var full := nom + " " + prenom;
    assert forall k :: 0 <= k < |nom| ==> full[k] == nom[k];
    assert forall k :: 0 <= k < |prenom| ==> full[|nom| + 1 + k] == prenom[k];
    assert full[|nom|] == ' ';
    if AllSpace(nom) && AllSpace(prenom) {
      assert AllSpace(full) by {
        forall k | 0 <= k < |full| ensures IsJsSpace(full[k]) {
          if k < |nom| {
          } else if k > |nom| {
            assert full[k] == prenom[k - |nom| - 1];
          }
        }
      }
    } else {
      assert !AllSpace(full);
    }
  }

  /** `numero || "N/A"`. */
  function Telephone(numero: Option<string>): (t: string)
    ensures t != []
    ensures Falsy(numero) ==> t == NoPhone
    ensures !Falsy(numero) ==> t == numero.value
  {
    if Falsy(numero) then NoPhone else numero.value
  }

  /** One listing row; `today` stands for the `toLocaleDateString()` fallback on an empty date. */
  function ViewOf(j: Joined, today: string): (v: PresenceView)
    ensures v.id == j.p.id
    ensures v.nom == DisplayName(j.m.nom, j.m.prenom)
    ensures v.telephone == Telephone(j.m.numero)
    ensures v.presence == Present <==> j.p.presence == 1
    ensures j.p.presence != 1 ==> v.presence == Absent
    ensures v.culte == CulteLabel(j.p.culte)
    ensures j.p.date != "" ==> v.date == j.p.date
    ensures j.p.date == "" ==> v.date == today
    ensures v.pkabsence == OrNull(j.p.pkabsence)
  {
    PresenceView(
      j.p.id,
      DisplayName(j.m.nom, j.m.prenom),
      Telephone(j.m.numero),
      PresenceLabel(j.p.presence),
      CulteLabel(j.p.culte),
      if j.p.date == "" then today else j.p.date,
      OrNull(j.p.pkabsence))
  }

  // ---------------------------------------------------------------------------
  // The inner join.
  // ---------------------------------------------------------------------------

  /** The pairs `p` forms with the members whose id is `p.member`: at most one when member ids are unique. */
  function JoinOne(p: PresenceRow, ms: seq<Member>): (r: seq<Joined>)
    ensures forall j :: j in r <==> j.p == p && j.m in ms && j.m.id == p.member
    ensures MemberIdsOk(ms) ==> |r| <= 1
  {
    var keep := (m: Member) => m.id == p.member;
    var hits := Filter(ms, keep);
    var r := seq(|hits|, k requires 0 <= k < |hits| => Joined(p, hits[k]));
    assert forall m :: m in hits ==> Joined(p, m) in r by {
      forall m | m in hits ensures Joined(p, m) in r {
        var k :| 0 <= k < |hits| && hits[k] == m;
        assert r[k] == Joined(p, m);
      }
    }
    assert MemberIdsOk(ms) ==> |hits| <= 1 by {
      if MemberIdsOk(ms) {
        FilterAtMostOne(ms, keep);
      }
    }
    r
  }

  /** No presence row is joined twice. */
  predicate KeysDistinct(js: seq<Joined>) {
    forall a, b :: 0 <= a < b < |js| ==> js[a].p.id != js[b].p.id
  }

  /**
   * `FROM presence p JOIN membre m ON p.member = m.id`: exactly the matching
   * pairs and, with unique ids in both tables, each presence row at most once.
   */
  function Join(ps: seq<PresenceRow>, ms: seq<Member>): (r: seq<Joined>)
    ensures forall j :: j in r <==> j.p in ps && j.m in ms && j.m.id == j.p.member
    ensures PresenceIdsOk(ps) && MemberIdsOk(ms) ==> KeysDistinct(r)
    decreases |ps|
  {
    if ps == [] then []
    else
      var one := JoinOne(ps[0], ms);
      var rest := Join(ps[1..], ms);
      assert forall p :: p in ps <==> p == ps[0] || p in ps[1..];
      JoinStepDistinct(ps, ms, one, rest);
      one + rest
  }

  /** The head's pairs and the tail's join never share a presence row. */
  lemma JoinStepDistinct(ps: seq<PresenceRow>, ms: seq<Member>, one: seq<Joined>, rest: seq<Joined>)
    requires ps != []
    requires forall j :: j in one ==> j.p == ps[0]
    requires MemberIdsOk(ms) ==> |one| <= 1
    requires forall j :: j in rest ==> j.p in ps[1..]
    requires PresenceIdsOk(ps[1..]) && MemberIdsOk(ms) ==> KeysDistinct(rest)
    ensures PresenceIdsOk(ps) && MemberIdsOk(ms) ==> KeysDistinct(one + rest)
  {
    if PresenceIdsOk(ps) && MemberIdsOk(ms) {
      var r := one + rest;
      assert forall i :: 0 <= i < |ps| - 1 ==> ps[1..][i] == ps[i + 1];
      forall a, b | 0 <= a < b < |r| ensures r[a].p.id != r[b].p.id {
        if a < |one| {
          assert r[a] in one && r[b] == rest[b - |one|];
          assert r[b] in rest;
          var k := IndexOf(ps[1..], r[b].p);
          assert ps[k + 1] == r[b].p;
        } else {
          assert r[a] == rest[a - |one|] && r[b] == rest[b - |one|];
        }
      }
    }
  }

  // ---------------------------------------------------------------------------
  // ORDER BY p.date DESC, m.nom, m.prenom (BINARY collation: code points).
  // ---------------------------------------------------------------------------

  /** Lexicographic order on code points, a proper prefix first. */
  predicate StrLeq(a: string, b: string)
    decreases |a|
  {
    a == [] || (b != [] && (a[0] < b[0] || (a[0] == b[0] && StrLeq(a[1..], b[1..]))))
  }

  lemma {:induction false} StrLeqTotal(a: string, b: string)
    ensures StrLeq(a, b) || StrLeq(b, a)
    decreases |a|
  {
    if a != [] && b != [] && a[0] == b[0] {
      StrLeqTotal(a[1..], b[1..]);
    }
  }

  lemma {:induction false} StrLeqAntisym(a: string, b: string)
    requires StrLeq(a, b) && StrLeq(b, a)
    ensures a == b
    decreases |a|
  {
    if a != [] {
      StrLeqAntisym(a[1..], b[1..]);
      assert a == [a[0]] + a[1..] && b == [b[0]] + b[1..];
    }
  }

  lemma {:induction false} StrLeqTrans(a: string, b: string, c: string)
    requires StrLeq(a, b) && StrLeq(b, c)
    ensures StrLeq(a, c)
    decreases |a|
  {
    if a != [] && a[0] == b[0] && b[0] == c[0] {
      StrLeqTrans(a[1..], b[1..], c[1..]);
    }
  }

  /** `x` may be listed before `y`. */
  predicate Before(x: Joined, y: Joined) {
    if x.p.date != y.p.date then StrLeq(y.p.date, x.p.date)
    else if x.m.nom != y.m.nom then StrLeq(x.m.nom, y.m.nom)
    else StrLeq(x.m.prenom, y.m.prenom)
  }

  lemma BeforeTotal(x: Joined, y: Joined)
    ensures Before(x, y) || Before(y, x)
  {
    StrLeqTotal(x.p.date, y.p.date);
    StrLeqTotal(x.m.nom, y.m.nom);
    StrLeqTotal(x.m.prenom, y.m.prenom);
  }

  lemma BeforeTrans(x: Joined, y: Joined, z: Joined)
    requires Before(x, y) && Before(y, z)
    ensures Before(x, z)
  {
    if x.p.date != y.p.date || y.p.date != z.p.date {
      if x.p.date != y.p.date && y.p.date != z.p.date {
        StrLeqTrans(z.p.date, y.p.date, x.p.date);
        if x.p.date == z.p.date {
          StrLeqAntisym(x.p.date, y.p.date);
        }
      }
    } else if x.m.nom != y.m.nom || y.m.nom != z.m.nom {
      if x.m.nom != y.m.nom && y.m.nom != z.m.nom {
        StrLeqTrans(x.m.nom, y.m.nom, z.m.nom);
        if x.m.nom == z.m.nom {
          StrLeqAntisym(x.m.nom, y.m.nom);
        }
      }
    } else {
      StrLeqTrans(x.m.prenom, y.m.prenom, z.m.prenom);
    }
  }

  predicate Sorted(s: seq<Joined>) {
    forall i, j :: 0 <= i < j < |s| ==> Before(s[i], s[j])
  }

  function Insert(x: Joined, s: seq<Joined>): seq<Joined>
    decreases |s|
  {
    if s == [] then [x]
    else if Before(x, s[0]) then [x] + s
    else [s[0]] + Insert(x, s[1..])
  }

  lemma {:induction false} InsertPermutes(x: Joined, s: seq<Joined>)
    ensures multiset(Insert(x, s)) == multiset(s) + multiset{x}
    decreases |s|
  {
    if s != [] && !Before(x, s[0]) {
      InsertPermutes(x, s[1..]);
      assert s == [s[0]] + s[1..];
    }
  }

  lemma {:induction false} InsertSorted(x: Joined, s: seq<Joined>)
    requires Sorted(s)
    ensures Sorted(Insert(x, s))
    decreases |s|
  {
    if s == [] {
    } else if Before(x, s[0]) {
      var r := [x] + s;
      forall i, j | 0 <= i < j < |r| ensures Before(r[i], r[j]) {
        if i == 0 && j > 1 {
          BeforeTrans(x, s[0], s[j - 1]);
        }
      }
    } else {
      BeforeTotal(x, s[0]);
      InsertSorted(x, s[1..]);
      InsertPermutes(x, s[1..]);
      var t := Insert(x, s[1..]);
      var r := [s[0]] + t;
      forall i, j | 0 <= i < j < |r| ensures Before(r[i], r[j]) {
        if i == 0 {
          assert r[j] == t[j - 1];
          assert t[j - 1] in multiset(t);
          if t[j - 1] != x {
            assert t[j - 1] in multiset(s[1..]);
            var k :| 0 <= k < |s[1..]| && s[1..][k] == t[j - 1];
            assert s[k + 1] == t[j - 1];
          }
        } else {
          assert r[i] == t[i - 1] && r[j] == t[j - 1];
        }
      }
    }
  }

  /** Insertion sort by `Before`: the listing order. */
  function Sort(s: seq<Joined>): (r: seq<Joined>)
    ensures Sorted(r)
    ensures multiset(r) == multiset(s)
    decreases |s|
  {
    if s == [] then []
    else
      var t := Sort(s[1..]);
      InsertSorted(s[0], t);
      InsertPermutes(s[0], t);
      SplitFirst(s);
      Insert(s[0], t)
  }

  lemma SplitFirst(s: seq<Joined>)
    requires s != []
    ensures multiset(s) == multiset(s[1..]) + multiset{s[0]}
  {
    assert s == [s[0]] + s[1..];
  }

  // ---------------------------------------------------------------------------
  // getAllPresences.
  // ---------------------------------------------------------------------------

  /** Reordering the joined rows keeps each presence row at most once. */
  lemma PermutationKeysDistinct(s: seq<Joined>, r: seq<Joined>)
    requires multiset(r) == multiset(s) && KeysDistinct(s)
    ensures KeysDistinct(r)
  {
    PermutationNoDup(s, r);
    forall a, b | 0 <= a < b < |r| ensures r[a].p.id != r[b].p.id {
      assert r[a] in multiset(s) && r[b] in multiset(s);
      var i := IndexOf(s, r[a]);
      var j := IndexOf(s, r[b]);
      assert i != j;
    }
  }

  /** The joined rows in listing order: the matching pairs, each presence row once. */
  function OrderedJoin(db: Db): (r: seq<Joined>)
    ensures Sorted(r)
    ensures forall j :: j in r <==> j.p in db.presences && j.m in db.membres && j.m.id == j.p.member
    ensures PresenceIdsOk(db.presences) && MemberIdsOk(db.membres) ==> KeysDistinct(r)
  {
    var js := Join(db.presences, db.membres);
    var r := Sort(js);
    assert forall j :: j in r <==> j in multiset(r);
    assert forall j :: j in js <==> j in multiset(js);
    assert PresenceIdsOk(db.presences) && MemberIdsOk(db.membres) ==> KeysDistinct(r) by {
      if PresenceIdsOk(db.presences) && MemberIdsOk(db.membres) {
        PermutationKeysDistinct(js, r);
      }
    }
    r
  }

  /** `getAllPresences()`, with `today` for the date fallback. */
  function GetAllPresences(db: Db, today: string): (r: seq<PresenceView>)
    ensures |r| == |OrderedJoin(db)|
    ensures forall k :: 0 <= k < |r| ==> r[k] == ViewOf(OrderedJoin(db)[k], today)
  {
    var js := OrderedJoin(db);
    seq(|js|, k requires 0 <= k < |js| => ViewOf(js[k], today))
  }

  predicate Listed(views: seq<PresenceView>, id: int) {
    exists k :: 0 <= k < |views| && views[k].id == id
  }

  /**
   * A stored presence row appears in the listing exactly when a member row
   * carries its member id: rows of deleted or unknown members are hidden.
   */
  lemma ListedIffMemberExists(db: Db, today: string, p: PresenceRow)
    requires Valid(db)
    requires p in db.presences
    ensures Listed(GetAllPresences(db, today), p.id) <==> HasMember(db.membres, p.member)
  {
    if Listed(GetAllPresences(db, today), p.id) {
      ListedHasMember(db, today, p);
    }
    if HasMember(db.membres, p.member) {
      MemberMakesListed(db, today, p);
    }
  }

  lemma ListedHasMember(db: Db, today: string, p: PresenceRow)
    requires PresenceIdsOk(db.presences)
    requires p in db.presences
    requires Listed(GetAllPresences(db, today), p.id)
    ensures HasMember(db.membres, p.member)
  {
    var js := OrderedJoin(db);
    var views := GetAllPresences(db, today);
    var k :| 0 <= k < |views| && views[k].id == p.id;
    var j := js[k];
    assert j in js;
    var a := IndexOf(db.presences, j.p);
    var b := IndexOf(db.presences, p);
    assert a == b;
    assert db.membres[IndexOf(db.membres, j.m)].id == p.member;
  }

  lemma MemberMakesListed(db: Db, today: string, p: PresenceRow)
    requires p in db.presences
    requires HasMember(db.membres, p.member)
    ensures Listed(GetAllPresences(db, today), p.id)
  {
    var js := OrderedJoin(db);
    var views := GetAllPresences(db, today);
    var i :| 0 <= i < |db.membres| && db.membres[i].id == p.member;
    var j := Joined(p, db.membres[i]);
    assert j in js;
    var k := IndexOf(js, j);
    assert views[k].id == p.id;
  }

  /** On a valid store, no presence is listed twice. */
  lemma EachPresenceListedOnce(db: Db, today: string)
    requires Valid(db)
    ensures var views := GetAllPresences(db, today);
      forall a, b :: 0 <= a < b < |views| ==> views[a].id != views[b].id
  {
    var js := OrderedJoin(db);
    var views := GetAllPresences(db, today);
    forall a, b | 0 <= a < b < |views| ensures views[a].id != views[b].id {
      assert views[a].id == js[a].p.id && views[b].id == js[b].p.id;
    }
  }

  /** Every listed presence flag reads "Présent" or "Absent". */
  lemma ListingPresenceLabels(db: Db, today: string)
    ensures forall v :: v in GetAllPresences(db, today) ==> v.presence == Present || v.presence == Absent
  {
    var views := GetAllPresences(db, today);
    forall v | v in views ensures v.presence == Present || v.presence == Absent {
      var k :| 0 <= k < |views| && views[k] == v;
    }
  }
}

=== FILE: route_laws.dfy ===
/**
 * What the route actions promise beyond one call's contract, and the gaps
 * between what their validation checks and what the store then holds.
 */
module RouteLaws {
  import opened Wrappers
  import opened JsText
  import opened Store
  import opened Routes

  /** The form fields a check-in for (member, culte, date) submits, in their parsed form. */
  predicate CheckInOf(form: Form, memberId: int, culteId: int, date: string) {
    && PresenceFormOk(form)
    && ParseIntField(Field(form, "memberId")) == Some(memberId)
    && ParseIntField(Field(form, "culteId")) == Some(culteId)
    && Field(form, "date") == Some(date)
  }

  /** A second check-in for the same triple is answered 400 with `duplicate: true` and stores nothing. */
  lemma SecondCheckInRejected(verb: string, form: Form, db: Db, fault: Fault, memberId: int, culteId: int, date: string)
    requires CheckInOf(form, memberId, culteId, date)
    requires CheckPresenceExists(db, memberId, culteId, date)
    ensures PresencesAction(verb, form, db, fault) == Step(BadRequest(DuplicatePresence, false, true), db)
  {
  }

  /**
   * A failed INSERT is reported as a duplicate although no row holds the
   * triple: the response cannot tell a storage error from a repeat check-in.
   */
  lemma StorageErrorReportedAsDuplicate(verb: string, form: Form, db: Db, memberId: int, culteId: int, date: string)
    requires CheckInOf(form, memberId, culteId, date)
    requires !CheckPresenceExists(db, memberId, culteId, date)
    ensures var r := PresencesAction(verb, form, db, FailAt(0));
      && r.result.BadRequest? && r.result.duplicate
      && r.db == db
  {
  }

  /** A valid first check-in succeeds and appends exactly its row. */
  lemma FirstCheckInStored(verb: string, form: Form, db: Db, memberId: int, culteId: int, date: string)
    requires CheckInOf(form, memberId, culteId, date)
    requires !CheckPresenceExists(db, memberId, culteId, date)
    ensures var r := PresencesAction(verb, form, db, NoFault);
      && r.result == Success(None)
      && |r.db.presences| == |db.presences| + 1
      && CheckPresenceExists(r.db, memberId, culteId, date)
  {
    var r := PresencesAction(verb, form, db, NoFault);
    assert r.db.presences[|db.presences|] in r.db.presences;
  }

  /** The create route accepts an absence without any reason. */
  lemma AbsenceWithoutReasonAccepted(verb: string, form: Form, db: Db, memberId: int, culteId: int, date: string)
    requires CheckInOf(form, memberId, culteId, date)
    requires !CheckPresenceExists(db, memberId, culteId, date)
    requires "presence" !in form && "pkabsence" !in form
    ensures var r := PresencesAction(verb, form, db, NoFault);
      && r.result.Success?
      && r.db.presences[|db.presences|].presence == 0
      && r.db.presences[|db.presences|].pkabsence.None?
  {
  }

  /** "TRUE", "1", "yes" or a missing field all record an absence. */
  lemma OnlyTrueMeansPresent(verb: string, form: Form, db: Db, fault: Fault)
    requires Field(form, "presence") != Some("true")
    ensures var r := PresencesAction(verb, form, db, fault);
      r.result.Success? ==> r.db.presences[|db.presences|].presence == 0
  {
  }

  /**
   * An edit that turns a row into an absence, with a reason the route
   * validated, stores no reason: the row keeps the reason it had.
   */
  lemma PutDropsReason(idParam: string, form: Form, db: Db, k: int)
    requires ParseInt(idParam).Some?
    requires ParseIntField(Field(form, "culteId")).Some?
    requires Field(form, "presence") == Some("false") && Field(form, "pkabsence") == Some("malade")
    requires 0 <= k < |db.presences| && db.presences[k].id == ParseInt(idParam).value
    requires db.presences[k].pkabsence.None?
    ensures var r := PresencesIdAction("PUT", idParam, form, db, NoFault);
      && r.result.Success?
      && r.db.presences[k].presence == 0
      && r.db.presences[k].pkabsence.None?
  {
  }

  /** A reason made only of spaces passes the edit route's check. */
  lemma BlankReasonPasses(idParam: string, form: Form, db: Db)
    requires ParseInt(idParam).Some?
    requires ParseIntField(Field(form, "culteId")).Some?
    requires Field(form, "presence") == None && Field(form, "pkabsence") == Some(" ")
    ensures PresencesIdAction("PUT", idParam, form, db, NoFault).result.Success?
  {
  }

  /** The registration route ignores the HTTP method: a PUT registers just like a POST. */
  lemma MembersActionIgnoresVerb(verb: string, form: Form, db: Db, fault: Fault)
    ensures MembersAction(verb, form, db, fault) == MembersAction("POST", form, db, fault)
  {
  }

  /**
   * Registering a stored member's names again, in any mix of ASCII case, is
   * refused as existing with nothing written.
   */
  lemma CaseInsensitiveDuplicate(verb: string, form: Form, db: Db, fault: Fault, m: Member)
    requires m in db.membres && NamesPresent(form)
    requires |form["nom"]| == |m.nom| && forall k :: 0 <= k < |m.nom| ==> AsciiCaseVariant(m.nom[k], form["nom"][k])
    requires |form["prenom"]| == |m.prenom| && forall k :: 0 <= k < |m.prenom| ==> AsciiCaseVariant(m.prenom[k], form["prenom"][k])
    ensures MembersAction(verb, form, db, fault) == Step(BadRequest(MemberExists, true, false), db)
  {
    LowerEqAsciiCase(m.nom, form["nom"]);
    LowerEqAsciiCase(m.prenom, form["prenom"]);
  }

  /** A trimmed name and the same name behind one space never compare equal under LOWER. */
  lemma PaddedNeverLowerEq(a: string, b: string)
    requires Trimmed(a)
    ensures !LowerEq(a, " " + b)
  {
    if a != [] && |a| == |" " + b| {
      assert SqlLower(a)[0] != ' ';
      assert SqlLower(" " + b)[0] == ' ';
    }
  }

  /**
   * A surname sent with a leading space escapes the duplicate check, because
   * the lookup compares the raw field while the insert stores it trimmed:
   * the table ends up with a second row carrying the same names.
   */
  lemma PaddedNameSlipsThrough(db: Db, m: Member)
    requires Valid(db) && NamesTrimmed(db.membres)
    requires m in db.membres && m.nom != [] && m.prenom != []
    ensures var r := MembersAction("POST", map["nom" := " " + m.nom, "prenom" := m.prenom], db, NoFault);
      && r.result.Success?
      && |r.db.membres| == |db.membres| + 1
      && m in r.db.membres
      && r.db.membres[|db.membres|].nom == m.nom
      && r.db.membres[|db.membres|].prenom == m.prenom
  {
    var form := map["nom" := " " + m.nom, "prenom" := m.prenom];
    assert NamesPresent(form);
    forall x | x in db.membres ensures !(LowerEq(x.nom, " " + m.nom) && LowerEq(x.prenom, m.prenom)) {
      PaddedNeverLowerEq(x.nom, m.nom);
    }
    assert AllSpace(" ");
    TrimOfPadded(" ", m.nom, "");
    assert " " + m.nom + "" == " " + m.nom;
    TrimOfTrimmed(m.prenom);
  }

  /** A name made only of spaces passes validation and is stored as "". */
  lemma BlankNameStoredEmpty(verb: string, form: Form, db: Db)
    requires NamesPresent(form) && AllSpace(form["nom"])
    requires GetMemberByNameAndPrenom(db, form["nom"], form["prenom"]).None?
    requires "numero" !in form
    ensures var r := MembersAction(verb, form, db, NoFault);
      && r.result.Success?
      && r.db.membres[|db.membres|].nom == ""
  {
  }

  /** A registration without a birth date stores "". */
  lemma MissingBirthDateStoredEmpty(verb: string, form: Form, db: Db, fault: Fault)
    requires "dateDeNaissance" !in form
    ensures var r := MembersAction(verb, form, db, fault);
      r.result.Success? ==> r.db.membres[|db.membres|].dateDeNaissance == ""
  {
  }

  /** A phone number already on file makes registration fail with 500 and no row. */
  lemma TakenNumeroIs500(verb: string, form: Form, db: Db, m: Member)
    requires Valid(db) && NamesPresent(form)
    requires GetMemberByNameAndPrenom(db, form["nom"], form["prenom"]).None?
    requires m in db.membres && m.numero.Some? && Field(form, "numero") == m.numero
    ensures MembersAction(verb, form, db, NoFault) == Step(ServerError(AddMemberFailed), db)
  {
  }

  /**
   * A member delete whose second statement throws answers 500, yet the
   * member's presence rows are already gone while the member row stays;
   * every other member's presence rows are kept.
   */
  lemma FailedMemberDeleteIsPartial(idParam: string, form: Form, db: Db)
    requires ParseInt(idParam).Some?
    ensures var r := MembersIdAction("DELETE", idParam, form, db, FailAt(1));
      var id := ParseInt(idParam).value;
      && r.result == ServerError(DeleteFailed)
      && r.db.membres == db.membres
      && r.db.membreSeq == db.membreSeq
      && (forall p :: p in r.db.presences <==> p in db.presences && p.member != id)
  {
  }

  /** Editing a member to a phone number another member holds is a 500 with no change. */
  lemma EditToTakenNumeroIs500(idParam: string, form: Form, db: Db, other: Member)
    requires Valid(db)
    requires ParseInt(idParam).Some? && HasMember(db.membres, ParseInt(idParam).value)
    requires NamesPresent(form)
    requires other in db.membres && other.id != ParseInt(idParam).value
    requires other.numero.Some? && Field(form, "numero") == other.numero
    ensures MembersIdAction("PUT", idParam, form, db, NoFault) == Step(ServerError(UpdateFailed), db)
  {
  }
}

=== FILE: routes.dfy ===
/**
 * The four API route actions (`POST /api/presences`, `PUT|DELETE
 * /api/presences/:id`, `POST /api/members`, `PUT|DELETE /api/members/:id`)
 * as pure functions from the request method, the submitted form fields and
 * the store to a response and the new store.
 */
module Routes {
  import opened Wrappers
  import opened JsText
  import opened Store

  /** Submitted form fields: `formData.get(name)` is null when the field is absent. */
  type Form = map<string, string>

  function Field(form: Form, name: string): (v: Option<string>)
    ensures v.Some? <==> name in form
    ensures v.Some? ==> v.value == form[name]
  {
    if name in form then Some(form[name]) else None
  }

  /** The JSON responses the actions return. */
  datatype Response =
    | Success(memberId: Option<int>)                          // 200 {success: true[, memberId]}
    | BadRequest(error: string, existing: bool, duplicate: bool) // 400 {error[, exists][, duplicate]}
    | ServerError(error: string)                              // 500
    | MethodNotAllowed                                        // 405
  {
    function Status(): int {
      match this
      case Success(_) => 200
      case BadRequest(_, _, _) => 400
      case ServerError(_) => 500
      case MethodNotAllowed => 405
    }
  }

  const InvalidData: string := "Données invalides"
  const DuplicatePresence: string := "Présence déjà enregistrée pour ce membre/culte/date"
  const InvalidId: string := "ID invalide"
  const InvalidCulte: string := "Culte invalide"
  const ReasonRequired: string := "La raison d'absence est requise"
  const DeleteFailed: string := "Erreur lors de la suppression"
  const UpdateFailed: string := "Erreur lors de la modification"
  const NamesRequired: string := "Le nom et le prénom sont obligatoires"
  const MemberExists: string := "Ce membre existe déjà"
  const AddMemberFailed: string := "Erreur lors de l'ajout du membre"

  function Invalid(error: string): Response {
    BadRequest(error, false, false)
  }

  /** `formData.get(name) === "true"`: any other value, or no value, is false. */
  predicate Flag(form: Form, name: string) {
    Field(form, name) == Some("true")
  }

  // ---------------------------------------------------------------------------
  // POST /api/presences
  // ---------------------------------------------------------------------------

  /** The create form passes validation: both ids parse and the date is non-empty. */
  predicate PresenceFormOk(form: Form) {
    && ParseIntField(Field(form, "memberId")).Some?
    && ParseIntField(Field(form, "culteId")).Some?
    && !Falsy(Field(form, "date"))
  }

  /** A stored row already holds the (member, culte, date) triple the form submits. */
  predicate FormTripleHeld(db: Db, form: Form)
    requires PresenceFormOk(form)
  {
    CheckPresenceExists(db, ParseIntField(Field(form, "memberId")).value,
      ParseIntField(Field(form, "culteId")).value, Field(form, "date").value)
  }

  /** The row a successful create appends, from the form fields. */
  predicate IsCreatedRow(p: PresenceRow, form: Form)
    requires PresenceFormOk(form)
  {
    && p.member == ParseIntField(Field(form, "memberId")).value
    && p.culte == ParseIntField(Field(form, "culteId")).value
    && p.date == Field(form, "date").value
    && (p.presence == 1 <==> Flag(form, "presence"))
    && p.presence in {0, 1}
    && p.pkabsence == OrNull(Field(form, "pkabsence"))
  }

  /**
   * The create action. It never reads the method, never answers 500, and
   * answers every failed insert with `duplicate: true`.
   */
  function PresencesAction(verb: string, form: Form, db: Db, fault: Fault): (r: Step<Response>)
    ensures !PresenceFormOk(form) ==> r == Step(Invalid(InvalidData), db)
    ensures r.result.Success? || (r.result.BadRequest? && !r.result.existing)
    ensures r.result.BadRequest? ==> r.db == db
    ensures r.result.BadRequest? && PresenceFormOk(form) ==> r.result == BadRequest(DuplicatePresence, false, true)
    ensures PresenceFormOk(form) ==>
      (r.result.Success? <==> !FormTripleHeld(db, form) && !fault.Hits(0))
    ensures r.result.Success? ==>
      && PresenceFormOk(form)
      && r.result.memberId.None?
      && |r.db.presences| == |db.presences| + 1
      && r.db.presences[..|db.presences|] == db.presences
      && IsCreatedRow(r.db.presences[|db.presences|], form)
    ensures r.db == db.(presences := r.db.presences, presenceSeq := r.db.presenceSeq)
    ensures Valid(db) ==> Valid(r.db)
    ensures TriplesUnique(db.presences) ==> TriplesUnique(r.db.presences)
  {
    var memberId := ParseIntField(Field(form, "memberId"));
    var culteId := ParseIntField(Field(form, "culteId"));
    var presence := Flag(form, "presence");
    var date := Field(form, "date");
    var pkabsence := Field(form, "pkabsence");
    if memberId.None? || culteId.None? || Falsy(date) then Step(Invalid(InvalidData), db)
    else
      var added := AddPresence(db, memberId.value, culteId.value, presence, date.value, OrNull(pkabsence), fault);
      if added.result then Step(Success(None), added.db)
      else Step(BadRequest(DuplicatePresence, false, true), added.db)
  }

  // ---------------------------------------------------------------------------
  // PUT | DELETE /api/presences/:id
  // ---------------------------------------------------------------------------

  /** `!presence && !pkabsence`: an absence submitted without a reason ("" counts as none). */
  predicate ReasonMissing(form: Form) {
    !Flag(form, "presence") && Falsy(Field(form, "pkabsence"))
  }

  /**
   * The edit/delete action. A PUT validates the service id and, for an
   * absence, the presence of a reason; the reason it then passes is dropped
   * by the three-parameter `updatePresence`, so no PUT changes `pkabsence`.
   */
  function PresencesIdAction(verb: string, idParam: string, form: Form, db: Db, fault: Fault): (r: Step<Response>)
    ensures ParseInt(idParam).None? ==> r == Step(Invalid(InvalidId), db)
    ensures verb != "DELETE" && verb != "PUT" && ParseInt(idParam).Some? ==> r == Step(MethodNotAllowed, db)
    ensures verb == "DELETE" && ParseInt(idParam).Some? ==>
      && (r.result.Success? <==> !fault.Hits(0))
      && (r.result.Success? ==> forall p :: p in r.db.presences <==> p in db.presences && p.id != ParseInt(idParam).value)
      && (r.result.Success? ==> r.db.presenceSeq == ResetTableSequence(db.presenceSeq, fault.Hits(1)))
      && (!r.result.Success? ==> r == Step(ServerError(DeleteFailed), db))
    ensures verb == "PUT" && ParseInt(idParam).Some? && ParseIntField(Field(form, "culteId")).None? ==>
      r == Step(Invalid(InvalidCulte), db)
    ensures verb == "PUT" && ParseInt(idParam).Some? && ParseIntField(Field(form, "culteId")).Some? && ReasonMissing(form) ==>
      r == Step(Invalid(ReasonRequired), db)
    ensures verb == "PUT" && ParseInt(idParam).Some? && ParseIntField(Field(form, "culteId")).Some? && !ReasonMissing(form) ==>
      && (r.result.Success? <==> !fault.Hits(0))
      && (!r.result.Success? ==> r == Step(ServerError(UpdateFailed), db))
    ensures verb == "PUT" ==>
      && r.db == db.(presences := r.db.presences)
      && |r.db.presences| == |db.presences|
      && forall k :: 0 <= k < |db.presences| ==>
        var (was, now) := (db.presences[k], r.db.presences[k]);
        && now.id == was.id && now.member == was.member && now.date == was.date
        && now.pkabsence == was.pkabsence
        && (r.result.Success? && was.id == ParseInt(idParam).value ==>
              && (now.presence == 1 <==> Flag(form, "presence"))
              && now.culte == ParseIntField(Field(form, "culteId")).value)
        && (!(r.result.Success? && was.id == ParseInt(idParam).value) ==> now == was)
    ensures r.db == db.(presences := r.db.presences, presenceSeq := r.db.presenceSeq)
    ensures r.result.ServerError? || r.result.BadRequest? || r.result.MethodNotAllowed? ==> r.db == db
    ensures Valid(db) ==> Valid(r.db)
  {
    var presenceId := ParseInt(idParam);
    if presenceId.None? then Step(Invalid(InvalidId), db)
    else if verb == "DELETE" then
      var deleted := DeletePresence(db, presenceId.value, fault);
      if deleted.result then Step(Success(None), deleted.db)
      else Step(ServerError(DeleteFailed), deleted.db)
    else if verb == "PUT" then
      var presence := Flag(form, "presence");
      var culteId := ParseIntField(Field(form, "culteId"));
      if culteId.None? then Step(Invalid(InvalidCulte), db)
      else if ReasonMissing(form) then Step(Invalid(ReasonRequired), db)
      else
        // The route also passes `presence ? null : pkabsence`; the callee has no such parameter.
        var updated := UpdatePresence(db, presenceId.value, presence, culteId.value, fault);
        if updated.result then Step(Success(None), updated.db)
        else Step(ServerError(UpdateFailed), updated.db)
    else Step(MethodNotAllowed, db)
  }

  // ---------------------------------------------------------------------------
  // POST /api/members
  // ---------------------------------------------------------------------------

  /** The member fields as the routes read them; the birth date defaults to "". */
  function BirthDate(form: Form): (d: string)
    ensures "dateDeNaissance" !in form ==> d == ""
    ensures "dateDeNaissance" in form ==> d == form["dateDeNaissance"]
  {
    OrEmpty(Field(form, "dateDeNaissance"))
  }

  predicate NamesPresent(form: Form) {
    !Falsy(Field(form, "nom")) && !Falsy(Field(form, "prenom"))
  }

  /** The member row a create or an edit with this form writes under `id`. */
  function FormMember(id: int, form: Form): Member
    requires NamesPresent(form)
  {
    StoredMember(id, form["nom"], form["prenom"], Field(form, "numero"), BirthDate(form))
  }

  /**
   * The registration action. It never reads the method. The duplicate
   * lookup compares the raw fields, while the insert stores them trimmed.
   */
  function MembersAction(verb: string, form: Form, db: Db, fault: Fault): (r: Step<Response>)
    ensures !NamesPresent(form) ==> r == Step(Invalid(NamesRequired), db)
    ensures NamesPresent(form) && GetMemberByNameAndPrenom(db, form["nom"], form["prenom"]).Some? ==>
      r == Step(BadRequest(MemberExists, true, false), db)
    ensures NamesPresent(form) && GetMemberByNameAndPrenom(db, form["nom"], form["prenom"]).None? ==>
      && (r.result.Success? <==> !fault.Hits(0) && !NumeroInUse(db.membres, OrNull(Field(form, "numero"))))
      && (!r.result.Success? ==> r == Step(ServerError(AddMemberFailed), db))
    ensures r.result.Success? || r.result.BadRequest? || r.result.ServerError?
    ensures !r.result.Success? ==> r.db == db
    ensures r.result.ServerError? ==> r.result == ServerError(AddMemberFailed)
    ensures r.result.Success? ==>
      && NamesPresent(form)
      && r.result.memberId.Some?
      && var id := r.result.memberId.value;
      && id > 0
      && !HasMember(db.membres, id)
      && r.db.membres == db.membres + [FormMember(id, form)]
      && r.db == db.(membres := r.db.membres, membreSeq := id)
    ensures Valid(db) ==> Valid(r.db)
    ensures NamesTrimmed(db.membres) ==> NamesTrimmed(r.db.membres)
  {
    var nom := Field(form, "nom");
    var prenom := Field(form, "prenom");
    var numero := Field(form, "numero");
    var dateDeNaissance := BirthDate(form);
    if Falsy(nom) || Falsy(prenom) then Step(Invalid(NamesRequired), db)
    else if GetMemberByNameAndPrenom(db, nom.value, prenom.value).Some? then
      Step(BadRequest(MemberExists, true, false), db)
    else
      var added := AddMember(db, nom.value, prenom.value, numero, dateDeNaissance, fault);
      // `if (memberId)`: an id of 0 would be falsy.
      if added.result.Some? && added.result.value != 0 then Step(Success(added.result), added.db)
      else Step(ServerError(AddMemberFailed), added.db)
  }

  // ---------------------------------------------------------------------------
  // PUT | DELETE /api/members/:id
  // ---------------------------------------------------------------------------

  /** The member edit/delete action. */
  function MembersIdAction(verb: string, idParam: string, form: Form, db: Db, fault: Fault): (r: Step<Response>)
    ensures ParseInt(idParam).None? ==> r == Step(Invalid(InvalidId), db)
    ensures verb != "DELETE" && verb != "PUT" && ParseInt(idParam).Some? ==> r == Step(MethodNotAllowed, db)
    ensures verb == "DELETE" && ParseInt(idParam).Some? ==>
      var id := ParseInt(idParam).value;
      && (r.result.Success? <==> !fault.Hits(0) && !fault.Hits(1))
      && (r.result.Success? ==> forall m :: m in r.db.membres <==> m in db.membres && m.id != id)
      && (!fault.Hits(0) ==> forall p :: p in r.db.presences <==> p in db.presences && p.member != id)
      && (r.result.Success? ==> r.db.membreSeq == ResetTableSequence(db.membreSeq, fault.Hits(2)))
      && (!r.result.Success? ==> r.result == ServerError(DeleteFailed) && r.db.membres == db.membres && r.db.membreSeq == db.membreSeq)
      && (fault.Hits(0) ==> r.db == db)
    ensures verb == "PUT" && ParseInt(idParam).Some? && !NamesPresent(form) ==>
      r == Step(Invalid(NamesRequired), db)
    ensures verb == "PUT" && ParseInt(idParam).Some? && NamesPresent(form) ==>
      var id := ParseInt(idParam).value;
      && (r.result.Success? <==>
            !fault.Hits(0) && !(HasMember(db.membres, id) && NumeroHeldByOther(db.membres, OrNull(Field(form, "numero")), id)))
      && (!r.result.Success? ==> r.result == ServerError(UpdateFailed))
    ensures verb == "PUT" && r.result.Success? ==>
      var id := ParseInt(idParam).value;
      && NamesPresent(form)
      && |r.db.membres| == |db.membres|
      && (forall k :: 0 <= k < |db.membres| ==>
            r.db.membres[k] == (if db.membres[k].id == id then FormMember(id, form) else db.membres[k]))
      && r.db == db.(membres := r.db.membres)
    ensures verb == "PUT" && !r.result.Success? ==> r.db == db
    ensures r.db.admins == db.admins && r.db.presenceSeq == db.presenceSeq
    ensures Valid(db) ==> Valid(r.db)
    ensures NamesTrimmed(db.membres) ==> NamesTrimmed(r.db.membres)
  {
    var memberId := ParseInt(idParam);
    if memberId.None? then Step(Invalid(InvalidId), db)
    else if verb == "DELETE" then
      var deleted := DeleteMember(db, memberId.value, fault);
      if deleted.result then Step(Success(None), deleted.db)
      else Step(ServerError(DeleteFailed), deleted.db)
    else if verb == "PUT" then
      var nom := Field(form, "nom");
      var prenom := Field(form, "prenom");
      var numero := Field(form, "numero");
      var dateDeNaissance := BirthDate(form);
      if Falsy(nom) || Falsy(prenom) then Step(Invalid(NamesRequired), db)
      else
        var updated := UpdateMember(db, memberId.value, nom.value, prenom.value, numero, dateDeNaissance, fault);
        if updated.result then Step(Success(None), updated.db)
        else Step(ServerError(UpdateFailed), updated.db)
    else Step(MethodNotAllowed, db)
  }
}

=== FILE: seqs.dfy ===
/**
 * Order-preserving filtering of sequences (the model of a SQL `DELETE ...
 * WHERE`), and the counting facts the listing needs about repeated rows.
 */
module Seqs {

  /** The elements of `s` that satisfy `keep`, in their original order. */
  function Filter<T(!new)>(s: seq<T>, keep: T -> bool): (r: seq<T>)
    ensures |r| <= |s|
    ensures forall x :: x in r <==> x in s && keep(x)
    ensures forall k :: 0 <= k < |r| ==> keep(r[k])
  {
    if s == [] then []
    else if keep(s[0]) then [s[0]] + Filter(s[1..], keep)
    else Filter(s[1..], keep)
  }

  /** When every element is kept, filtering is the identity. */
  lemma {:induction false} FilterKeepsAll<T(!new)>(s: seq<T>, keep: T -> bool)
    requires forall k :: 0 <= k < |s| ==> keep(s[k])
    ensures Filter(s, keep) == s
    decreases |s|
  {
    if s != [] {
      FilterKeepsAll(s[1..], keep);
    }
  }

  /** A pairwise property of a sequence (in order) survives filtering. */
  lemma {:induction false} FilterPairwise<T(!new)>(s: seq<T>, keep: T -> bool, ok: (T, T) -> bool)
    requires forall i, j :: 0 <= i < j < |s| ==> ok(s[i], s[j])
    ensures forall i, j :: 0 <= i < j < |Filter(s, keep)| ==> ok(Filter(s, keep)[i], Filter(s, keep)[j])
    decreases |s|
  {
    if s != [] {
      FilterPairwise(s[1..], keep, ok);
      var t := Filter(s[1..], keep);
      if keep(s[0]) {
        var r := Filter(s, keep);
        assert r == [s[0]] + t;
        forall i, j | 0 <= i < j < |r| ensures ok(r[i], r[j]) {
          if i == 0 {
            assert r[j] == t[j - 1] && t[j - 1] in t;
            assert t[j - 1] in s[1..];
            var m :| 0 <= m < |s[1..]| && s[1..][m] == t[j - 1];
            assert s[m + 1] == r[j];
            assert ok(s[0], s[m + 1]);
          } else {
            assert r[i] == t[i - 1] && r[j] == t[j - 1];
            assert 0 <= i - 1 < j - 1 < |t|;
            assert ok(t[i - 1], t[j - 1]);
          }
        }
      }
    }
  }
  /** When nothing passes `keep`, filtering leaves nothing. */
  lemma {:induction false} FilterNone<T(!new)>(s: seq<T>, keep: T -> bool)
    requires forall k :: 0 <= k < |s| ==> !keep(s[k])
    ensures Filter(s, keep) == []
    decreases |s|
  {
    if s != [] {
      FilterNone(s[1..], keep);
    }
  }

  /** When no two elements both pass `keep`, filtering leaves at most one. */
  lemma {:induction false} FilterAtMostOne<T(!new)>(s: seq<T>, keep: T -> bool)
    requires forall i, j :: 0 <= i < j < |s| ==> !(keep(s[i]) && keep(s[j]))
    ensures |Filter(s, keep)| <= 1
    decreases |s|
  {
    if s != [] {
      var t := s[1..];
      assert forall k :: 0 <= k < |t| ==> t[k] == s[k + 1];
      if keep(s[0]) {
        FilterNone(t, keep);
      } else {
        FilterAtMostOne(t, keep);
      }
    }
  }

  /** A position at which `x` occurs in `s`. */
  function IndexOf<T(==)>(s: seq<T>, x: T): (i: nat)
    requires x in s
    ensures i < |s| && s[i] == x
  {
    if s[0] == x then 0 else 1 + IndexOf(s[1..], x)
  }

  /** No element occurs at two positions. */
  predicate NoDup<T(==)>(s: seq<T>) {
    forall a, b :: 0 <= a < b < |s| ==> s[a] != s[b]
  }

  /** A sequence without repeats holds each element at most once. */
  lemma {:induction false} NoDupCount<T>(s: seq<T>)
    requires NoDup(s)
    ensures forall x :: multiset(s)[x] <= 1
    decreases |s|
  {
    if s != [] {
      var t := s[1..];
      assert forall k :: 0 <= k < |t| ==> t[k] == s[k + 1];
      NoDupCount(t);
      assert s == [s[0]] + t;
      assert s[0] !in t;
    }
  }

  /** An element found at two positions is counted at least twice. */
  lemma RepeatCounted<T>(s: seq<T>, a: int, b: int)
    requires 0 <= a < b < |s| && s[a] == s[b]
    ensures multiset(s)[s[a]] >= 2
  {
    assert s == s[..b] + s[b..];
    assert s[a] in s[..b];
    assert s[b] in s[b..];
  }

  /** A permutation of a sequence without repeats has none either. */
  lemma PermutationNoDup<T>(s: seq<T>, r: seq<T>)
    requires multiset(r) == multiset(s) && NoDup(s)
    ensures NoDup(r)
  {
    NoDupCount(s);
    forall a, b | 0 <= a < b < |r| ensures r[a] != r[b] {
      if r[a] == r[b] {
        RepeatCounted(r, a, b);
      }
    }
  }
}

=== FILE: store.dfy ===
/**
 * The SQLite data layer of the attendance register as an immutable store:
 * the `membre`, `presence` and `admin` tables as sequences of rows in rowid
 * order, and the two `sqlite_sequence` counters of the tables whose ids are
 * reclaimed after a delete. Every operation is a pure function returning its
 * JavaScript result together with the new store.
 *
 * A storage fault (the driver throwing inside a `try` block) is a parameter:
 * `FailAt(k)` makes the k-th write of the operation throw, counted from 0 in
 * the order the statements run; earlier writes stay applied, because the
 * source runs them without a transaction.
 */
module Store {
  import opened Wrappers
  import opened JsText
  import opened Seqs

  datatype Member = Member(id: int, nom: string, prenom: string, numero: Option<string>, dateDeNaissance: string)

  /** A `presence` row: `presence` holds 1 (present) or 0 (absent). */
  datatype PresenceRow = PresenceRow(id: int, culte: int, presence: int, date: string, member: int, pkabsence: Option<string>)

  datatype Admin = Admin(id: int, username: string, password: string)

  datatype Db = Db(
    membres: seq<Member>,
    presences: seq<PresenceRow>,
    admins: seq<Admin>,
    membreSeq: int,
    presenceSeq: int)

  datatype Fault = NoFault | FailAt(step: nat) {
    predicate Hits(k: nat) {
      FailAt? && step == k
    }
  }

  /** The JavaScript return value of an operation and the store after it. */
  datatype Step<T> = Step(result: T, db: Db)

  const DefaultAdminUsername: string := "Culte"
  const DefaultAdminPassword: string := "Culte@Pr0t3ction"

  const EmptyDb: Db := Db([], [], [], 0, 0)

  // ---------------------------------------------------------------------------
  // What the schema and the write paths keep true of the tables.
  // ---------------------------------------------------------------------------

  /** Ids are positive and unique (INTEGER PRIMARY KEY AUTOINCREMENT). */
  predicate MemberIdsOk(ms: seq<Member>) {
    && (forall i :: 0 <= i < |ms| ==> ms[i].id > 0)
    && (forall i, j :: 0 <= i < j < |ms| ==> ms[i].id != ms[j].id)
  }

  /** `numero TEXT UNIQUE`: two non-null numbers never coincide; many NULLs may. */
  predicate NumerosUnique(ms: seq<Member>) {
    forall i, j :: 0 <= i < j < |ms| && ms[i].numero.Some? ==> ms[i].numero != ms[j].numero
  }

  predicate PresenceIdsOk(ps: seq<PresenceRow>) {
    && (forall i :: 0 <= i < |ps| ==> ps[i].id > 0)
    && (forall i, j :: 0 <= i < j < |ps| ==> ps[i].id != ps[j].id)
  }

  predicate AdminsOk(admins: seq<Admin>) {
    forall i, j :: 0 <= i < j < |admins| ==> admins[i].id != admins[j].id && admins[i].username != admins[j].username
  }

  /**
   * The store invariant: the schema's key and uniqueness constraints, plus
   * what every write path guarantees (`x || null` never stores an empty
   * string, the presence flag is stored as 1 or 0, counters start at 0).
   */
  predicate Valid(db: Db) {
    && MemberIdsOk(db.membres)
    && NumerosUnique(db.membres)
    && (forall i :: 0 <= i < |db.membres| ==> db.membres[i].numero != Some(""))
    && PresenceIdsOk(db.presences)
    && (forall i :: 0 <= i < |db.presences| ==> db.presences[i].presence in {0, 1})
    && (forall i :: 0 <= i < |db.presences| ==> db.presences[i].pkabsence != Some(""))
    && AdminsOk(db.admins)
    && db.membreSeq >= 0
    && db.presenceSeq >= 0
  }

  /** Every stored name is trimmed, as `addMember` and `updateMember` leave them. */
  predicate NamesTrimmed(ms: seq<Member>) {
    forall i :: 0 <= i < |ms| ==> Trimmed(ms[i].nom) && Trimmed(ms[i].prenom)
  }

  /** The duplicate-submission invariant: one row per (member, culte, date). */
  predicate TriplesUnique(ps: seq<PresenceRow>) {
    forall i, j :: 0 <= i < j < |ps| ==>
      !(ps[i].member == ps[j].member && ps[i].culte == ps[j].culte && ps[i].date == ps[j].date)
  }

  lemma EmptyDbValid()
    ensures Valid(EmptyDb) && TriplesUnique(EmptyDb.presences)
  {
  }

  // ---------------------------------------------------------------------------
  // Id allocation and the sequence counters.
  // ---------------------------------------------------------------------------

  /** The largest id in use, 0 for an empty table. */
  function MaxId(ids: seq<int>): (m: int)
    ensures m >= 0
    ensures forall k :: 0 <= k < |ids| ==> ids[k] <= m
    ensures m == 0 || exists k :: 0 <= k < |ids| && ids[k] == m
  {
    if ids == [] then 0
    else
      var rest := MaxId(ids[1..]);
      assert forall k :: 1 <= k < |ids| ==> ids[k] == ids[1..][k - 1];
      if ids[0] > rest then ids[0] else rest
  }

  /**
   * The id AUTOINCREMENT hands out: one more than both the table's counter
   * and the largest id in use. It is fresh and positive, and it is the
   * counter plus one whenever the counter is not behind any id.
   */
  function NewId(ids: seq<int>, counter: int): (id: int)
    ensures id > 0 && id > counter
    ensures forall k :: 0 <= k < |ids| ==> ids[k] < id
    ensures counter >= 0 && (forall k :: 0 <= k < |ids| ==> ids[k] <= counter) ==> id == counter + 1
  {
    var m := MaxId(ids);
    (if counter > m then counter else m) + 1
  }

  /** The id column of a table. */
  function Ids<T>(rows: seq<T>, id: T -> int): (ids: seq<int>)
    ensures |ids| == |rows| && forall k :: 0 <= k < |rows| ==> ids[k] == id(rows[k])
  {
    seq(|rows|, k requires 0 <= k < |rows| => id(rows[k]))
  }

  /**
   * `resetTableSequence`: the counter is decremented, clamped at 0. When the
   * UPDATE throws, the error is swallowed and the counter stays as it was.
   */
  function ResetTableSequence(counter: int, fails: bool): (r: int)
    ensures fails ==> r == counter
    ensures !fails ==> r >= 0 && r >= counter - 1 && r <= (if counter > 0 then counter else 0)
    ensures !fails && counter > 0 ==> r < counter
  {
    if fails then counter
    else if counter > 0 then counter - 1
    else 0
  }

  // ---------------------------------------------------------------------------
  // Members.
  // ---------------------------------------------------------------------------

  predicate HasMember(ms: seq<Member>, id: int) {
    exists k :: 0 <= k < |ms| && ms[k].id == id
  }

  /** A non-null phone number already stored on some row. */
  predicate NumeroInUse(ms: seq<Member>, numero: Option<string>) {
    numero.Some? && exists k :: 0 <= k < |ms| && ms[k].numero == numero
  }

  /** A non-null phone number stored on a row whose id is not `id`. */
  predicate NumeroHeldByOther(ms: seq<Member>, numero: Option<string>, id: int) {
    numero.Some? && exists k :: 0 <= k < |ms| && ms[k].numero == numero && ms[k].id != id
  }

  /** The row `addMember` and `updateMember` write: names trimmed, empty number as NULL. */
  function StoredMember(id: int, nom: string, prenom: string, numero: Option<string>, dateDeNaissance: string): (m: Member)
    ensures m.id == id && m.dateDeNaissance == dateDeNaissance
    ensures m.nom == Trim(nom) && m.prenom == Trim(prenom)
    ensures m.numero == (if Falsy(numero) then None else numero)
  {
    Member(id, Trim(nom), Trim(prenom), OrNull(numero), dateDeNaissance)
  }

  /** `getAllMembers`: nom and prenom are never NULL here, so every row is listed. */
  function GetAllMembers(db: Db): (r: seq<Member>)
    ensures r == db.membres
  {
    FilterKeepsAll(db.membres, (m: Member) => true);
    Filter(db.membres, (m: Member) => true)
  }

  /**
   * `addMember`: inserts the trimmed row and returns its id, or null when the
   * INSERT throws — on a `numero` already held by a row, or a storage fault.
   */
  function AddMember(db: Db, nom: string, prenom: string, numero: Option<string>, dateDeNaissance: string, fault: Fault): (r: Step<Option<int>>)
    ensures r.result.None? <==> fault.Hits(0) || NumeroInUse(db.membres, OrNull(numero))
    ensures r.result.None? ==> r.db == db
    ensures r.result.Some? ==>
      && r.result.value > 0
      && !HasMember(db.membres, r.result.value)
      && r.db.membres == db.membres + [StoredMember(r.result.value, nom, prenom, numero, dateDeNaissance)]
      && r.db == db.(membres := r.db.membres, membreSeq := r.result.value)
    ensures Valid(db) ==> Valid(r.db)
    ensures NamesTrimmed(db.membres) ==> NamesTrimmed(r.db.membres)
  {
    var stored := OrNull(numero);
    if fault.Hits(0) || NumeroInUse(db.membres, stored) then Step(None, db)
    else
      var id := NewId(Ids(db.membres, (m: Member) => m.id), db.membreSeq);
      var row := StoredMember(id, nom, prenom, numero, dateDeNaissance);
      var db' := db.(membres := db.membres + [row], membreSeq := id);
      assert Valid(db) ==> Valid(db') by {
        if Valid(db) {
          AppendMemberValid(db, row);
        }
      }
      Step(Some(id), db')
  }

  lemma AppendMemberValid(db: Db, row: Member)
    requires Valid(db)
    requires row.id > 0 && !HasMember(db.membres, row.id)
    requires row.numero != Some("") && !NumeroInUse(db.membres, row.numero)
    ensures Valid(db.(membres := db.membres + [row], membreSeq := row.id))
  {
    var ms := db.membres + [row];
    forall i, j | 0 <= i < j < |ms| ensures ms[i].id != ms[j].id {
      if j == |db.membres| {
        assert ms[i] == db.membres[i];
      }
    }
    forall i, j | 0 <= i < j < |ms| && ms[i].numero.Some? ensures ms[i].numero != ms[j].numero {
      if j == |db.membres| {
        assert ms[i] == db.membres[i];
      }
    }
  }

  /** Replaces every row whose id is `id` by `row`; the others stay in place. */
  function ReplaceMember(ms: seq<Member>, id: int, row: Member): (r: seq<Member>)
    ensures |r| == |ms|
    ensures forall k :: 0 <= k < |ms| ==> r[k] == (if ms[k].id == id then row else ms[k])
  {
    seq(|ms|, k requires 0 <= k < |ms| => if ms[k].id == id then row else ms[k])
  }

  /**
   * `updateMember`: overwrites nom, prenom, numero and dateDeNaissance of the
   * row with that id and returns true — also when no row has that id. It
   * returns false without writing when the UPDATE throws: a `numero` held by
   * another row, or a storage fault.
   */
  function UpdateMember(db: Db, id: int, nom: string, prenom: string, numero: Option<string>, dateDeNaissance: string, fault: Fault): (r: Step<bool>)
    ensures !r.result <==> fault.Hits(0) || (HasMember(db.membres, id) && NumeroHeldByOther(db.membres, OrNull(numero), id))
    ensures !r.result ==> r.db == db
    ensures r.result ==>
      && |r.db.membres| == |db.membres|
      && (forall k :: 0 <= k < |db.membres| && db.membres[k].id != id ==> r.db.membres[k] == db.membres[k])
      && (forall k :: 0 <= k < |db.membres| && db.membres[k].id == id ==>
            r.db.membres[k] == StoredMember(id, nom, prenom, numero, dateDeNaissance))
      && r.db == db.(membres := r.db.membres)
    ensures Valid(db) ==> Valid(r.db)
    ensures NamesTrimmed(db.membres) ==> NamesTrimmed(r.db.membres)
  {
    var stored := OrNull(numero);
    if fault.Hits(0) || (HasMember(db.membres, id) && NumeroHeldByOther(db.membres, stored, id)) then Step(false, db)
    else
      var row := StoredMember(id, nom, prenom, numero, dateDeNaissance);
      var ms := ReplaceMember(db.membres, id, row);
      assert Valid(db) ==> Valid(db.(membres := ms)) by {
        if Valid(db) {
          ReplaceMemberValid(db, id, row);
        }
      }
      Step(true, db.(membres := ms))
  }

  lemma ReplaceMemberValid(db: Db, id: int, row: Member)
    requires Valid(db)
    requires row.id == id && row.numero != Some("")
    requires !(HasMember(db.membres, id) && NumeroHeldByOther(db.membres, row.numero, id))
    ensures Valid(db.(membres := ReplaceMember(db.membres, id, row)))
  {
    var ms := ReplaceMember(db.membres, id, row);
    forall i, j | 0 <= i < j < |ms| && ms[i].numero.Some? ensures ms[i].numero != ms[j].numero {
      if db.membres[i].id == id {
        assert HasMember(db.membres, id);
        assert db.membres[j].id != id;
      } else if db.membres[j].id == id {
        assert HasMember(db.membres, id);
        assert db.membres[i].id != id;
      }
    }
    forall i, j | 0 <= i < j < |ms| ensures ms[i].id != ms[j].id {
      assert db.membres[i].id != db.membres[j].id;
    }
  }

  /**
   * `deleteMember`: removes the member's presence rows, then the member row,
   * then decrements the `membre` counter. Returns true unless one of the two
   * DELETEs throws; a fault in the counter update is swallowed. The
   * `presence` counter is never touched here.
   */
  function DeleteMember(db: Db, id: int, fault: Fault): (r: Step<bool>)
    ensures r.result <==> !fault.Hits(0) && !fault.Hits(1)
    ensures fault.Hits(0) ==> r.db == db
    ensures !fault.Hits(0) ==>
      forall p :: p in r.db.presences <==> p in db.presences && p.member != id
    ensures !fault.Hits(0) && !fault.Hits(1) ==>
      forall m :: m in r.db.membres <==> m in db.membres && m.id != id
    ensures fault.Hits(1) ==> r.db.membres == db.membres && r.db.membreSeq == db.membreSeq
    ensures r.result ==> r.db.membreSeq == ResetTableSequence(db.membreSeq, fault.Hits(2))
    ensures r.db.presenceSeq == db.presenceSeq && r.db.admins == db.admins
    ensures Valid(db) ==> Valid(r.db)
    ensures NamesTrimmed(db.membres) ==> NamesTrimmed(r.db.membres)
  {
    if fault.Hits(0) then Step(false, db)
    else
      var ps := Filter(db.presences, (p: PresenceRow) => p.member != id);
      FilterPresencesValid(db, (p: PresenceRow) => p.member != id);
      if fault.Hits(1) then Step(false, db.(presences := ps))
      else
        var ms := Filter(db.membres, (m: Member) => m.id != id);
        FilterMembersValid(db.(presences := ps), (m: Member) => m.id != id);
        FilterMembersTrimmed(db.membres, (m: Member) => m.id != id);
        Step(true, db.(presences := ps, membres := ms, membreSeq := ResetTableSequence(db.membreSeq, fault.Hits(2))))
  }

  /** Deleting presence rows keeps the store invariant. */
  lemma FilterPresencesValid(db: Db, keep: PresenceRow -> bool)
    ensures Valid(db) ==> Valid(db.(presences := Filter(db.presences, keep)))
  {
    if Valid(db) {
      FilterPairwise(db.presences, keep, (a: PresenceRow, b: PresenceRow) => a.id != b.id);
    }
  }

  /** Deleting member rows keeps the store invariant. */
  lemma FilterMembersValid(db: Db, keep: Member -> bool)
    ensures Valid(db) ==> Valid(db.(membres := Filter(db.membres, keep)))
  {
    if Valid(db) {
      FilterPairwise(db.membres, keep, (a: Member, b: Member) => a.id != b.id);
      FilterPairwise(db.membres, keep, (a: Member, b: Member) => a.numero.Some? ==> a.numero != b.numero);
    }
  }

  /** Deleting member rows keeps every remaining name trimmed. */
  lemma FilterMembersTrimmed(ms: seq<Member>, keep: Member -> bool)
    ensures NamesTrimmed(ms) ==> NamesTrimmed(Filter(ms, keep))
  {
    if NamesTrimmed(ms) {
      var r := Filter(ms, keep);
      forall k | 0 <= k < |r| ensures Trimmed(r[k].nom) && Trimmed(r[k].prenom) {
        assert r[k] in ms;
        var i :| 0 <= i < |ms| && ms[i] == r[k];
      }
    }
  }

  predicate NameMatch(m: Member, nom: string, prenom: string) {
    LowerEq(m.nom, nom) && LowerEq(m.prenom, prenom)
  }

  /** First row in table order matching both names under LOWER. */
  function FindByName(ms: seq<Member>, nom: string, prenom: string): (r: Option<Member>)
    ensures r.Some? ==> r.value in ms && NameMatch(r.value, nom, prenom)
    ensures r.None? <==> forall k :: 0 <= k < |ms| ==> !NameMatch(ms[k], nom, prenom)
  {
    if ms == [] then None
    else if NameMatch(ms[0], nom, prenom) then Some(ms[0])
    else
      var r := FindByName(ms[1..], nom, prenom);
      assert forall k :: 1 <= k < |ms| ==> ms[k] == ms[1..][k - 1];
      r
  }

  /** `getMemberByNameAndPrenom`: `LOWER(nom) = LOWER(?) AND LOWER(prenom) = LOWER(?)`. */
  function GetMemberByNameAndPrenom(db: Db, nom: string, prenom: string): (r: Option<Member>)
    ensures r.Some? ==> r.value in db.membres && LowerEq(r.value.nom, nom) && LowerEq(r.value.prenom, prenom)
    ensures r.None? <==> forall m :: m in db.membres ==> !(LowerEq(m.nom, nom) && LowerEq(m.prenom, prenom))
  {
    FindByName(db.membres, nom, prenom)
  }

  // ---------------------------------------------------------------------------
  // Presences.
  // ---------------------------------------------------------------------------

  predicate IsTriple(p: PresenceRow, memberId: int, culteId: int, date: string) {
    p.member == memberId && p.culte == culteId && p.date == date
  }

  /** `SELECT COUNT(*) ... WHERE member = ? AND culte = ? AND date = ?`. */
  function CountTriple(ps: seq<PresenceRow>, memberId: int, culteId: int, date: string): (n: nat)
    ensures n <= |ps|
    ensures n > 0 <==> exists k :: 0 <= k < |ps| && IsTriple(ps[k], memberId, culteId, date)
  {
    if ps == [] then 0
    else
      var rest := CountTriple(ps[1..], memberId, culteId, date);
      assert forall k :: 1 <= k < |ps| ==> ps[k] == ps[1..][k - 1];
      (if IsTriple(ps[0], memberId, culteId, date) then 1 else 0) + rest
  }

  /** `checkPresenceExists`. */
  function CheckPresenceExists(db: Db, memberId: int, culteId: int, date: string): (r: bool)
    ensures r <==> exists p :: p in db.presences && IsTriple(p, memberId, culteId, date)
  {
    CountTriple(db.presences, memberId, culteId, date) > 0
  }

  /** The row `addPresence` writes: the flag as 1/0 and the reason with "" as NULL, whatever the flag. */
  function StoredPresence(id: int, memberId: int, culteId: int, presence: bool, date: string, pkabsence: Option<string>): (p: PresenceRow)
    ensures IsTriple(p, memberId, culteId, date) && p.id == id
    ensures p.presence == 1 <==> presence
    ensures p.presence in {0, 1}
    ensures p.pkabsence.None? <==> Falsy(pkabsence)
    ensures !Falsy(pkabsence) ==> p.pkabsence == pkabsence
  {
    PresenceRow(id, culteId, if presence then 1 else 0, date, memberId, OrNull(pkabsence))
  }

  /**
   * `addPresence`: false without writing when a row already holds the
   * (member, culte, date) triple or when the INSERT throws; otherwise one
   * row is appended and true returned. The member id is not checked
   * against the `membre` table: foreign-key enforcement is not modelled.
   */
  function AddPresence(db: Db, memberId: int, culteId: int, presence: bool, date: string, pkabsence: Option<string>, fault: Fault): (r: Step<bool>)
    ensures r.result <==> !CheckPresenceExists(db, memberId, culteId, date) && !fault.Hits(0)
    ensures !r.result ==> r.db == db
    ensures r.result ==>
      var n := |db.presences|;
      && |r.db.presences| == n + 1
      && r.db.presences[..n] == db.presences
      && r.db.presences[n] == StoredPresence(r.db.presences[n].id, memberId, culteId, presence, date, pkabsence)
      && (forall k :: 0 <= k < n ==> db.presences[k].id != r.db.presences[n].id)
      && r.db == db.(presences := r.db.presences, presenceSeq := r.db.presences[n].id)
    ensures Valid(db) ==> Valid(r.db)
    ensures TriplesUnique(db.presences) ==> TriplesUnique(r.db.presences)
  {
    if CheckPresenceExists(db, memberId, culteId, date) || fault.Hits(0) then Step(false, db)
    else
      var id := NewId(Ids(db.presences, (p: PresenceRow) => p.id), db.presenceSeq);
      var row := StoredPresence(id, memberId, culteId, presence, date, pkabsence);
      var ps := db.presences + [row];
      assert forall k :: 0 <= k < |db.presences| ==> ps[k] == db.presences[k];
      assert forall k :: 0 <= k < |db.presences| ==> !IsTriple(db.presences[k], memberId, culteId, date) by {
        forall k | 0 <= k < |db.presences| ensures !IsTriple(db.presences[k], memberId, culteId, date) {
          assert db.presences[k] in db.presences;
        }
      }
      assert ps[..|db.presences|] == db.presences;
      Step(true, db.(presences := ps, presenceSeq := id))
  }

  /**
   * `updatePresence(id, presence, culteId)`: sets the flag and the service of
   * the row with that id and returns true, whether or not such a row exists.
   * It neither re-checks the duplicate guard nor writes `pkabsence`.
   */
  function UpdatePresence(db: Db, presenceId: int, presence: bool, culteId: int, fault: Fault): (r: Step<bool>)
    ensures r.result <==> !fault.Hits(0)
    ensures !r.result ==> r.db == db
    ensures |r.db.presences| == |db.presences|
    ensures forall k :: 0 <= k < |db.presences| ==>
      var (was, now) := (db.presences[k], r.db.presences[k]);
      && now.id == was.id && now.member == was.member
      && now.date == was.date && now.pkabsence == was.pkabsence
      && (r.result && was.id == presenceId ==> now.presence == (if presence then 1 else 0) && now.culte == culteId)
      && (was.id != presenceId ==> now == was)
    ensures r.db == db.(presences := r.db.presences)
    ensures Valid(db) ==> Valid(r.db)
  {
    if fault.Hits(0) then Step(false, db)
    else
      var flag := if presence then 1 else 0;
      var ps := seq(|db.presences|, k requires 0 <= k < |db.presences| =>
        var p := db.presences[k];
        if p.id == presenceId then p.(presence := flag, culte := culteId) else p);
      Step(true, db.(presences := ps))
  }

  /**
   * `deletePresence`: removes the row with that id and decrements the
   * `presence` counter. Returns true unless the DELETE throws; a fault in
   * the counter update is swallowed.
   */
  function DeletePresence(db: Db, presenceId: int, fault: Fault): (r: Step<bool>)
    ensures r.result <==> !fault.Hits(0)
    ensures !r.result ==> r.db == db
    ensures r.result ==> forall p :: p in r.db.presences <==> p in db.presences && p.id != presenceId
    ensures r.result ==> r.db.presenceSeq == ResetTableSequence(db.presenceSeq, fault.Hits(1))
    ensures r.db.membres == db.membres && r.db.admins == db.admins && r.db.membreSeq == db.membreSeq
    ensures Valid(db) ==> Valid(r.db)
    ensures TriplesUnique(db.presences) ==> TriplesUnique(r.db.presences)
  {
    if fault.Hits(0) then Step(false, db)
    else
      var keep := (p: PresenceRow) => p.id != presenceId;
      var ps := Filter(db.presences, keep);
      FilterPresencesValid(db, keep);
      assert TriplesUnique(db.presences) ==> TriplesUnique(ps) by {
        if TriplesUnique(db.presences) {
          FilterPairwise(db.presences, keep, (a: PresenceRow, b: PresenceRow) => !(a.member == b.member && a.culte == b.culte && a.date == b.date));
        }
      }
      Step(true, db.(presences := ps, presenceSeq := ResetTableSequence(db.presenceSeq, fault.Hits(1))))
  }

  // ---------------------------------------------------------------------------
  // Admin.
  // ---------------------------------------------------------------------------

  /** First admin row in table order with that username and password. */
  function FindAdmin(admins: seq<Admin>, username: string, password: string): (r: Option<Admin>)
    ensures r.Some? ==> r.value in admins && r.value.username == username && r.value.password == password
    ensures r.None? <==> forall k :: 0 <= k < |admins| ==> !(admins[k].username == username && admins[k].password == password)
  {
    if admins == [] then None
    else if admins[0].username == username && admins[0].password == password then Some(admins[0])
    else
      var r := FindAdmin(admins[1..], username, password);
      assert forall k :: 1 <= k < |admins| ==> admins[k] == admins[1..][k - 1];
      r
  }

  /** `loginAdmin`: exact match on the trimmed username and the untouched password. */
  function LoginAdmin(db: Db, username: string, password: string): (r: Option<Admin>)
    ensures r.Some? ==> r.value in db.admins && r.value.username == Trim(username) && r.value.password == password
    ensures r.None? <==> forall a :: a in db.admins ==> !(a.username == Trim(username) && a.password == password)
  {
    FindAdmin(db.admins, Trim(username), password)
  }

  /** `checkAdminExists`. */
  function CheckAdminExists(db: Db, username: string): (r: bool)
    ensures r <==> exists a :: a in db.admins && a.username == Trim(username)
  {
    exists k :: 0 <= k < |db.admins| && db.admins[k].username == Trim(username)
  }

  /**
   * The admin seed of `initTables`: on an empty admin table, one row with the
   * default credentials (id 1, the first AUTOINCREMENT id); otherwise nothing.
   */
  function SeedAdmin(db: Db): (r: Db)
    ensures |db.admins| == 0 ==> r.admins == [Admin(1, DefaultAdminUsername, DefaultAdminPassword)]
    ensures |db.admins| > 0 ==> r == db
    ensures r == db.(admins := r.admins)
    ensures Valid(db) ==> Valid(r)
  {
    if |db.admins| == 0 then db.(admins := [Admin(1, DefaultAdminUsername, DefaultAdminPassword)])
    else db
  }
}

=== FILE: store_laws.dfy ===
/**
 * Properties of the data layer that relate several operations, and the
 * places where the data layer does less than its callers might expect.
 */
module StoreLaws {
  import opened Wrappers
  import opened JsText
  import opened Seqs
  import opened Store
  import opened Listing

  /** A member added with a fresh id is listed once, with trimmed names. */
  lemma AddedMemberIsListed(db: Db, nom: string, prenom: string, numero: Option<string>, dateDeNaissance: string, fault: Fault)
    requires Valid(db)
    ensures var r := AddMember(db, nom, prenom, numero, dateDeNaissance, fault);
      r.result.Some? ==>
        var row := StoredMember(r.result.value, nom, prenom, numero, dateDeNaissance);
        && row in GetAllMembers(r.db)
        && (forall m :: m in GetAllMembers(r.db) && m.id == r.result.value ==> m == row)
        && (forall m :: m in GetAllMembers(db) ==> m in GetAllMembers(r.db))
  {
    var r := AddMember(db, nom, prenom, numero, dateDeNaissance, fault);
    if r.result.Some? {
      var id := r.result.value;
      var row := StoredMember(id, nom, prenom, numero, dateDeNaissance);
      var ms := r.db.membres;
      assert ms[|ms| - 1] == row;
      assert forall i :: 0 <= i < |db.membres| ==> ms[i] == db.membres[i] && ms[i].id != id;
      forall m | m in ms && m.id == id ensures m == row {
        var k :| 0 <= k < |ms| && ms[k] == m;
        assert k == |ms| - 1;
      }
    }
  }

  /** An edit of an existing member reads back exactly the written values. */
  lemma UpdateMemberReadBack(db: Db, id: int, nom: string, prenom: string, numero: Option<string>, dateDeNaissance: string)
    requires Valid(db)
    requires HasMember(db.membres, id)
    requires !NumeroHeldByOther(db.membres, OrNull(numero), id)
    ensures var r := UpdateMember(db, id, nom, prenom, numero, dateDeNaissance, NoFault);
      && r.result
      && StoredMember(id, nom, prenom, numero, dateDeNaissance) in r.db.membres
      && (forall m :: m in r.db.membres && m.id == id ==> m == StoredMember(id, nom, prenom, numero, dateDeNaissance))
      && |r.db.membres| == |db.membres|
  {
    var r := UpdateMember(db, id, nom, prenom, numero, dateDeNaissance, NoFault);
    var row := StoredMember(id, nom, prenom, numero, dateDeNaissance);
    var k :| 0 <= k < |db.membres| && db.membres[k].id == id;
    assert r.db.membres[k] == row;
    forall m | m in r.db.membres && m.id == id ensures m == row {
      var i :| 0 <= i < |r.db.membres| && r.db.membres[i] == m;
    }
  }

  /** `updateMember` on an id no row carries changes nothing and still reports success. */
  lemma UpdateMissingMemberSucceeds(db: Db, id: int, nom: string, prenom: string, numero: Option<string>, dateDeNaissance: string, fault: Fault)
    requires !HasMember(db.membres, id)
    requires !fault.Hits(0)
    ensures UpdateMember(db, id, nom, prenom, numero, dateDeNaissance, fault) == Step(true, db)
  {
    var r := UpdateMember(db, id, nom, prenom, numero, dateDeNaissance, fault);
    assert r.db.membres == db.membres;
  }

  /** After a member delete, nothing of that member is listed any more. */
  lemma DeletedMemberVanishes(db: Db, id: int, fault: Fault, today: string)
    requires DeleteMember(db, id, fault).result
    ensures var after := DeleteMember(db, id, fault).db;
      && (forall m :: m in GetAllMembers(after) ==> m.id != id)
      && (forall j :: j in OrderedJoin(after) ==> j.p.member != id && j.m.id != id)
      && (forall v :: v in GetAllPresences(after, today) ==> exists p :: p in after.presences && p.id == v.id && p.member != id)
  {
    var after := DeleteMember(db, id, fault).db;
    var views := GetAllPresences(after, today);
    var js := OrderedJoin(after);
    forall v | v in views ensures exists p :: p in after.presences && p.id == v.id && p.member != id {
      var k :| 0 <= k < |views| && views[k] == v;
      assert js[k] in js;
      assert js[k].p in after.presences;
    }
  }

  /**
   * With inserts unchecked against the `membre` table, a presence recorded
   * for a member id no row carries is stored, yet never listed.
   */
  lemma OrphanPresenceHidden(db: Db, memberId: int, culteId: int, presence: bool, date: string, pkabsence: Option<string>, fault: Fault, today: string)
    requires Valid(db)
    requires !HasMember(db.membres, memberId)
    ensures var r := AddPresence(db, memberId, culteId, presence, date, pkabsence, fault);
      r.result ==>
        var row := r.db.presences[|db.presences|];
        && row.member == memberId
        && !Listed(GetAllPresences(r.db, today), row.id)
  {
    var r := AddPresence(db, memberId, culteId, presence, date, pkabsence, fault);
    if r.result {
      var row := r.db.presences[|db.presences|];
      assert row in r.db.presences;
      ListedIffMemberExists(r.db, today, row);
    }
  }

  /** A second row for one (member, culte, date) triple can be created by an edit. */
  lemma UpdatePresenceBreaksTriples()
    ensures var db := Db([], [PresenceRow(1, 1, 1, "07/01/2024", 7, None), PresenceRow(2, 2, 1, "07/01/2024", 7, None)], [], 0, 2);
      && Valid(db)
      && TriplesUnique(db.presences)
      && UpdatePresence(db, 2, true, 1, NoFault).result
      && !TriplesUnique(UpdatePresence(db, 2, true, 1, NoFault).db.presences)
  {
    var ps := [PresenceRow(1, 1, 1, "07/01/2024", 7, None), PresenceRow(2, 2, 1, "07/01/2024", 7, None)];
    var db := Db([], ps, [], 0, 2);
    assert Valid(db) by {
      assert PresenceIdsOk(ps);
    }
    var r := UpdatePresence(db, 2, true, 1, NoFault);
    assert r.result;
    var after := r.db.presences;
    assert after[0] == ps[0];
    assert after[1].culte == 1 && after[1].member == 7 && after[1].date == "07/01/2024";
  }

  /** A reason given with a "present" check-in is stored anyway. */
  lemma PresentCheckInKeepsReason(db: Db, memberId: int, culteId: int, date: string, reason: string)
    requires !CheckPresenceExists(db, memberId, culteId, date)
    requires reason != ""
    ensures var r := AddPresence(db, memberId, culteId, true, date, Some(reason), NoFault);
      && r.result
      && r.db.presences[|db.presences|].presence == 1
      && r.db.presences[|db.presences|].pkabsence == Some(reason)
  {
  }

  /** Deleting a member reclaims one unit of the `membre` counter only. */
  lemma DeleteMemberCounters(db: Db, id: int)
    requires Valid(db)
    ensures var after := DeleteMember(db, id, NoFault).db;
      && after.presenceSeq == db.presenceSeq
      && after.membreSeq == (if db.membreSeq > 0 then db.membreSeq - 1 else 0)
  {
  }

  /** Seeding twice is seeding once. */
  lemma SeedAdminIdempotent(db: Db)
    ensures SeedAdmin(SeedAdmin(db)) == SeedAdmin(db)
    ensures |SeedAdmin(db).admins| >= 1
  {
  }

  /**
   * On a fresh admin table the seed makes exactly the default credentials
   * work: the username up to surrounding spaces, the password exactly.
   */
  lemma SeededLogin(db: Db, username: string, password: string)
    requires |db.admins| == 0
    ensures LoginAdmin(SeedAdmin(db), username, password).Some?
      <==> Trim(username) == DefaultAdminUsername && password == DefaultAdminPassword
    ensures CheckAdminExists(SeedAdmin(db), DefaultAdminUsername)
  {
    TrimOfTrimmed(DefaultAdminUsername);
  }

  /**
   * `checkAdminExists(u)` holds exactly when some password lets `u` log in:
   * both look the admin up by the trimmed username.
   */
  lemma AdminExistsIffSomeLogin(db: Db, username: string)
    ensures CheckAdminExists(db, username) <==> exists password :: LoginAdmin(db, username, password).Some?
  {
    if CheckAdminExists(db, username) {
      var a :| a in db.admins && a.username == Trim(username);
      assert LoginAdmin(db, username, a.password).Some?;
    }
  }

  /**
   * After the seed, a username is known exactly when it was known before, or
   * the admin table was empty and it trims to the default username.
   */
  lemma SeededAdminExists(db: Db, username: string)
    ensures CheckAdminExists(SeedAdmin(db), username)
      <==> CheckAdminExists(db, username) || (|db.admins| == 0 && Trim(username) == DefaultAdminUsername)
  {
    if |db.admins| == 0 && Trim(username) == DefaultAdminUsername {
      assert SeedAdmin(db).admins[0].username == Trim(username);
    }
  }

  /** A member just added is found again by its trimmed names, whatever their case. */
  lemma AddedMemberFound(db: Db, nom: string, prenom: string, numero: Option<string>, dateDeNaissance: string, fault: Fault)
    ensures var r := AddMember(db, nom, prenom, numero, dateDeNaissance, fault);
      r.result.Some? ==> GetMemberByNameAndPrenom(r.db, Trim(nom), Trim(prenom)).Some?
  {
    var r := AddMember(db, nom, prenom, numero, dateDeNaissance, fault);
    if r.result.Some? {
      var row := r.db.membres[|r.db.membres| - 1];
      assert row in r.db.membres;
      assert LowerEq(row.nom, Trim(nom)) && LowerEq(row.prenom, Trim(prenom));
    }
  }

  /** A presence just added makes its triple exist, so the same check-in is refused next time. */
  lemma AddedPresenceExists(db: Db, memberId: int, culteId: int, presence: bool, date: string, pkabsence: Option<string>, fault: Fault)
    ensures var r := AddPresence(db, memberId, culteId, presence, date, pkabsence, fault);
      r.result ==>
        && CheckPresenceExists(r.db, memberId, culteId, date)
        && !AddPresence(r.db, memberId, culteId, presence, date, pkabsence, NoFault).result
  {
    var r := AddPresence(db, memberId, culteId, presence, date, pkabsence, fault);
    if r.result {
      assert r.db.presences[|db.presences|] in r.db.presences;
    }
  }

  /** A deleted presence is no longer listed. */
  lemma DeletedPresenceNotListed(db: Db, presenceId: int, fault: Fault, today: string)
    requires DeletePresence(db, presenceId, fault).result
    ensures !Listed(GetAllPresences(DeletePresence(db, presenceId, fault).db, today), presenceId)
  {
    var after := DeletePresence(db, presenceId, fault).db;
    var views := GetAllPresences(after, today);
    var js := OrderedJoin(after);
    forall k | 0 <= k < |views| ensures views[k].id != presenceId {
      assert js[k] in js;
      assert js[k].p in after.presences;
    }
  }

  /**
   * Deleting the most recently added member and then adding one hands out
   * the deleted id again: the counter decrement of `resetTableSequence`
   * makes AUTOINCREMENT reuse it.
   */
  lemma DeleteThenAddReusesId(db: Db, nom: string, prenom: string, numero: Option<string>, dateDeNaissance: string)
    requires Valid(db)
    requires HasMember(db.membres, db.membreSeq)
    requires forall k :: 0 <= k < |db.membres| ==> db.membres[k].id <= db.membreSeq
    requires !NumeroInUse(db.membres, OrNull(numero))
    ensures var deleted := DeleteMember(db, db.membreSeq, NoFault);
      var added := AddMember(deleted.db, nom, prenom, numero, dateDeNaissance, NoFault);
      && deleted.result
      && added.result == Some(db.membreSeq)
  {
    var id := db.membreSeq;
    var deleted := DeleteMember(db, id, NoFault);
    var ms := deleted.db.membres;
    assert id > 0 by {
      var k :| 0 <= k < |db.membres| && db.membres[k].id == id;
    }
    assert deleted.db.membreSeq == id - 1;
    RemainingRows(ms, db.membres, id, OrNull(numero));
    var ids := Ids(ms, (m: Member) => m.id);
    assert forall k :: 0 <= k < |ids| ==> ids[k] <= id - 1;
    assert NewId(ids, id - 1) == id;
  }

  /** Rows kept by a delete of `id` stay below the old counter and hold no number the table did not hold. */
  lemma RemainingRows(small: seq<Member>, big: seq<Member>, id: int, numero: Option<string>)
    requires forall m :: m in small <==> m in big && m.id != id
    requires forall k :: 0 <= k < |big| ==> big[k].id <= id
    requires !NumeroInUse(big, numero)
    ensures forall k :: 0 <= k < |small| ==> small[k].id <= id - 1
    ensures !NumeroInUse(small, numero)
  {
    forall k | 0 <= k < |small| ensures small[k].id <= id - 1 && (numero.Some? ==> small[k].numero != numero) {
      assert small[k] in small;
      var i :| 0 <= i < |big| && big[i] == small[k];
    }
  }
}

=== FILE: wrappers.dfy ===
/** Optional values: the model's stand-in for JavaScript `null` and SQL NULL. */
module Wrappers {

  datatype Option<+T> = None | Some(value: T) {

    /** The value, or `default` when there is none. */
    function GetOr(default: T): T {
      match this
      case Some(v) => v
      case None => default
    }
  }
}
